=== FILE: README.md ===
# Naver news crawler: a Dafny model of its parsers

The crawler walks the article lists of Naver News (`list.nhn`) date by date
and page by page, requests every article it has not stored yet, and turns
each article page into a `NewsItem`: the article id (`aid`) and the press
code (`oid`) from the URL, the title, the publisher, the category, the
publish time, the publisher's own link and the body text. Three spiders
share the article parser in three copies:

- `News` follows links on its own; its parser is called `parse_link`.
- `News_manual` walks a date range through `parse_link` and `parse_article`.
- `News_manual_mongo` is the same walk; its parser keeps only publisher
  links that contain `http://` or `https://` somewhere, and cleans the body
  markup with `clean_html`.

This project models three things:

- one step of the list walk;
- all three article parsers;
- the markup cleaner.

It proves what they produce. The modules follow the program:

| file | module | models |
|---|---|---|
| `wrappers.dfy` | `Wrappers` | `None` and raised exceptions |
| `text.dfy` | `Text` | `str.isspace`, `in`, `str.replace`, `partition`, `split(c)` / `join` |
| `whitespace.dfy` | `Whitespace` | `" ".join(s.split())` |
| `clean_html.dfy` | `CleanHtml` | `clean_html` in `tools.py` |
| `query.dfy` | `Query` | `parse_qs(urlparse(url).query)[key][0]` |
| `dates.dfy` | `Dates` | the publish-time rewrite and `strptime(…, '%Y.%m.%d. %p %I:%M')` |
| `copyright.dfy` | `Copyright` | the copyright-line loop, the join, and the fallback over body paths |
| `extract.dfy` | `Extract` | the three article parsers |
| `walk.dfy` | `ListWalk` | `parse_link` of the date-range spiders, and the walk it drives |

An article page is a record of what the parser's XPath lookups return. For
each page layout (sports, entertainment, general) the record holds:

- the publish-time node;
- the publisher-link node;
- the body container;
- the text-node lists of the body paths.

A lookup that finds nothing is `None`. An exception the parser does not
catch becomes a `Raised` or `failure` value. A generator that raises keeps
the requests it yielded before the exception. The w3lib helpers behind
`clean_html` are parameters, so every property of `CleanHtml.Clean` holds
for any implementation of them.

Where the code does something other than what one would expect of a
crawler, the model follows the code:

- A publish time that is present but unreadable raises `ValueError`, and no
  item is produced. Only an absent time node (`AttributeError`) is caught,
  and the item then has no time.
- The copyright loop deletes lines from the list it is iterating over. It
  deletes by value through `list.index`. So a notice right after another
  notice survives, and a later notice deletes an earlier equal line.
- The MongoDB copy's publisher-link check asks whether `http://` or
  `https://` occurs anywhere in the link. It does not ask whether the link
  starts with one.
- The MongoDB copy's body goes through `clean_html` only. It has no
  copyright filter and no fallback paths.
- A URL without `aid` or `oid` raises `KeyError` and ends the parser.
- A list link without `aid` ends the list step. So does a link without
  `href`: `urlparse(None)` has an empty query, so it raises the same
  `KeyError`. The requests already yielded stand.

## Model

| member | source | states |
|---|---|---|
| Whitespace.Collapse | navernews/navernews/tools.py:21-22 | The result has no leading, trailing or doubled blank, every blank in it is a plain space, and it has the same words in the same order as the input. |
| Whitespace.Words | navernews/navernews/tools.py:21 | `split()` gives no pieces exactly when the string is blank. |
| Whitespace.WordsAreWords | navernews/navernews/tools.py:21 | Every piece `split()` returns is non-empty and holds no blank. |
| Whitespace.WordsOfJoin | navernews/navernews/tools.py:21-22 | Splitting words that were joined with single spaces gives the same words back. |
| Whitespace.CollapseFixpointIff | navernews/navernews/tools.py:21-22 | Collapsing leaves a string unchanged exactly when it is already collapsed, and collapsing twice is collapsing once. |
| CleanHtml.Clean | navernews/navernews/tools.py:4-25 | `None` comes back as `None` and anything else comes back as a string. That string is collapsed and keeps, in order, every word of the body after the markup stages (entities, dropped `script`/`a`/`h4` elements, entities, comments, tags). |
| Text.ReplaceAll | navernews/navernews/spiders/NewsSpider.py:549-551 | `replace` with a replacement no longer than the pattern never lengthens the text, and with one of the same length keeps its length. |
| Text.ReplaceAllAbsent | navernews/navernews/spiders/NewsSpider.py:504-505 | `replace` leaves a text that does not contain the pattern unchanged. |
| Text.ReplaceAllRemovesPattern | navernews/navernews/spiders/NewsSpider.py:504-505 | After `replace` with a replacement that cannot recreate it, the pattern no longer occurs. |
| Text.ReplaceAllKeepsAbsent | navernews/navernews/spiders/NewsSpider.py:504-505 | A later `replace` never re-creates a string an earlier one removed, as long as the replacement shares no character with it. |
| Query.UrlQuery | navernews/navernews/spiders/NewsSpider.py:475-476 | The query never contains a fragment marker and is empty for a URL without `?`. |
| Query.FieldParam | navernews/navernews/spiders/NewsSpider.py:476 | A field is read as a pair exactly when it has an `=` with a non-empty value after it. The pair's name has no `=`, and name, `=` and value spell the field. |
| Query.FieldParams | navernews/navernews/spiders/NewsSpider.py:476 | Each pair read from a list of fields is spelled, as `name=value`, by one of the fields; no name holds `=` and no value is empty. |
| Query.ParseQsl | navernews/navernews/spiders/NewsSpider.py:476 | `parse_qsl` gives pairs with a non-empty value and a name without `=`, neither holding `&`, and no pairs for an empty query. |
| Query.Lookup | navernews/navernews/spiders/NewsSpider.py:477-478 | The lookup fails (the `KeyError`) exactly when no pair has that name. |
| Query.LookupFindsFirst | navernews/navernews/spiders/NewsSpider.py:477-478 | The value found is the one of the first pair with that name (`[0]` of the list `parse_qs` builds). |
| Query.QueryValue | navernews/navernews/spiders/NewsSpider.py:475-478 | A value read from a URL is non-empty and holds no `&`; a URL without `?` always raises the `KeyError`. |
| Query.ParseOfEncode | navernews/navernews/spiders/NewsSpider.py:476 | `parse_qsl` reads back exactly the pairs a query was written from, provided no pair contains a separator and no value is empty. |
| Query.QueryValueOfLink | navernews/navernews/spiders/NewsSpider.py:475-478 | Reading a key from a link built as `base?name=value&…` gives the first value written under that key, or fails exactly when none was written. |
| Dates.Hour24 | navernews/navernews/spiders/NewsSpider.py:506 | `%I` with `%p` gives an hour of the day that is in the afternoon exactly for PM and that shows the same `%I` again. |
| Dates.HourRoundTrip | navernews/navernews/spiders/NewsSpider.py:506 | Every hour of the day is recovered from its 12-hour form and its AM/PM marker. |
| Dates.ReadClock | navernews/navernews/spiders/NewsSpider.py:506 | A clock part that `%p %I:%M` accepts has an hour from 1 to 12 and a minute from 0 to 59. |
| Dates.Strptime | navernews/navernews/spiders/NewsSpider.py:506 | Whatever `strptime` accepts is a real calendar time: a month with that day, hours 0-23, minutes 0-59. |
| Dates.StrptimeOfStamp | navernews/navernews/spiders/NewsSpider.py:506 | Every valid time printed as `yyyy.mm.dd. AM/PM hh:mm` is read back as that time. |
| Dates.Preprocess | navernews/navernews/spiders/NewsSpider.py:549-551 | The rewrite never makes the time text longer, and off sports pages keeps its length (`오전`/`오후` and `AM`/`PM` are equally long). |
| Dates.PreprocessRemovesMarkers | navernews/navernews/spiders/NewsSpider.py:549-551 | After the rewrite neither `오전` nor `오후` is left in the text, on any page. |
| Dates.PreprocessOfPlain | navernews/navernews/spiders/NewsSpider.py:601-604 | Text without the markers, and on sports pages without `기사입력 `, reaches `strptime` untouched. |
| Dates.PreprocessOfKoreanStamp | navernews/navernews/spiders/NewsSpider.py:549-551 | The site's stamp `yyyy.mm.dd. 오전/오후 hh:mm` is rewritten into the English stamp of the same time. |
| Dates.SportsPrefixDropped | navernews/navernews/spiders/NewsSpider.py:601-604 | On a sports page the `기사입력 ` in front of the stamp is dropped, and a stamp without it is treated as on other pages. |
| Dates.PublishDate | navernews/navernews/spiders/NewsSpider.py:545-555 | An absent time node gives no time (the caught `AttributeError`). A present one raises exactly when the rewritten text is not a valid time, and otherwise the time `strptime` reads from the rewritten text is stored. A stored time is a real calendar time. |
| Dates.PublishDateOfStamp | navernews/navernews/spiders/NewsSpider.py:598-608 | Every stamp the site prints is stored as the time it shows, on general pages and on sports pages with or without the `기사입력 ` prefix. |
| Dates.PublishDateRejects | navernews/navernews/spiders/NewsSpider.py:549-555 | A present time text that is empty, or that starts with neither a digit nor a marker, raises `ValueError` and is not stored raw. |
| Copyright.IndexOf | navernews/navernews/spiders/NewsSpider.py:565 | `list.index` finds a position holding the value, with no equal element before it. |
| Copyright.RemoveFirst | navernews/navernews/spiders/NewsSpider.py:565-566 | `del xs[xs.index(x)]` removes exactly the element at the first position holding `x`; the elements before and after it are kept in order. |
| Copyright.RemoveFirstDropsNotice | navernews/navernews/spiders/NewsSpider.py:563-566 | Deleting one notice by value keeps the other lines in order and keeps every ordinary line. |
| Copyright.SweepFrom | navernews/navernews/spiders/NewsSpider.py:563-566 | Every run of the loop from any position drops copyright notices and nothing else: the survivors keep their order and every ordinary line survives. |
| Copyright.RemoveCopyrightLines | navernews/navernews/spiders/NewsSpider.py:563-566 | The loop over a whole body drops copyright notices and nothing else: the survivors keep their order and every ordinary line survives. |
| Copyright.SweepWithoutNotices | navernews/navernews/spiders/NewsSpider.py:563-566 | A list without notices comes through the loop unchanged. |
| Copyright.AdjacentNotices | navernews/navernews/spiders/NewsSpider.py:563-566 | Of two notices side by side, the loop deletes the first and skips the second, which survives. |
| Copyright.DeletionByValue | navernews/navernews/spiders/NewsSpider.py:563-566 | A notice met later deletes the first equal line: from `[c, c, x, c]` the loop leaves `[x, c]`. |
| Copyright.JoinedContent | navernews/navernews/spiders/NewsSpider.py:563-567 | The joined body is collapsed and has exactly the words, in order, of the surviving lines joined with spaces. |
| Copyright.JoinedContentWithoutNotices | navernews/navernews/spiders/NewsSpider.py:563-567 | Without notices, the joined body is the collapsed join of all lines. |
| Copyright.FirstNonEmpty | navernews/navernews/spiders/NewsSpider.py:561-585 | The fallback chain gives a collapsed body. The body is empty exactly when every path gives an empty body; otherwise it is the body of the first path whose body is not empty. |
| Extract.Classify | navernews/navernews/spiders/NewsSpider.py:472-494 | A page is a sports page exactly when it has a `me:feed:serviceId` meta. Otherwise it is an entertainment page exactly when `twitter:site` is `네이버 TV연예`. |
| Extract.Category | navernews/navernews/spiders/NewsSpider.py:494-498 | Sports and entertainment pages get their fixed category. A general page gets `me2:category2` when that is present and not `속보`, and the article's own category box (possibly absent) otherwise; `속보` is stored only when the box says so. |
| Extract.Site | navernews/navernews/spiders/NewsSpider.py:487-593 | The publisher is `twitter:creator` on general and entertainment pages. On sports pages it is `og:article:author` with the `네이버 스포츠 \| ` prefix removed, never longer than the author; an author without the prefix is stored as written; and an exception is raised exactly when that meta is absent. |
| Extract.SportsSiteOfPrefixed | navernews/navernews/spiders/NewsSpider.py:590-593 | A sports publisher written as `네이버 스포츠 \| name`, where `name` does not contain that prefix again, is stored as `name`. |
| Extract.CheckedUrl | navernews/navernews/spiders/NewsSpider.py:873-881 | The publisher link is kept exactly when `http://` or `https://` occurs in it. Otherwise, and when it is absent, it is `""`. |
| Extract.CheckedUrlIsSubstringTest | navernews/navernews/spiders/NewsSpider.py:876-877 | Text in front of the scheme does not make the check fail. |
| Extract.OriginalUrl | navernews/navernews/spiders/NewsSpider.py:557-559 | The publisher link is stored as found, except in the MongoDB copy, which stores the checked link: `""` or a link containing a scheme. |
| Extract.ContentPaths | navernews/navernews/spiders/NewsSpider.py:561-585 | The link-following copy reads `text()` only. The date-range copy tries `div/text()` then `text()`, and on general pages (and only there) `div/span/text()` last. |
| Extract.Content | navernews/navernews/spiders/NewsSpider.py:561-585 | The stored body is always collapsed. The MongoDB copy stores `clean_html` of the container, so no body exactly when the container is absent; the other copies store the first non-empty body of the fallback chain, and an empty one only when every path was empty. |
| Extract.ManualContentFromDivText | navernews/navernews/spiders/NewsSpider.py:561-569 | A date-range page whose `div/text()` lines are ordinary and hold some text takes its body from that path alone. |
| Extract.ArticleItem | navernews/navernews/spiders/NewsSpider.py:480-636 | Given the ids, the parser raises on a missing sports publisher, or (the publisher being readable) exactly when the time text cannot be read, and otherwise emits an item: it is emitted exactly when the publisher and the time are both readable. The item carries the ids, the page's URL and title, an empty author, and the publisher, category, time, publisher link and body each as read from the page's own layout. |
| Extract.ExtractArticle | navernews/navernews/spiders/NewsSpider.py:464-636 | A list page is skipped exactly when its URL contains `list.nhn`. A missing `aid`, then a missing `oid`, raises `KeyError`. An emitted item's ids are the first `aid` and `oid` of the URL, and its other fields are read from the page's layout. A `KeyError` names `aid` or `oid` and only a key the query lacks. With both ids the outcome is that of `Extract.ArticleItem` on those ids: a missing sports publisher raises, otherwise an unreadable time raises exactly when the time text cannot be read, and a page with a readable publisher and a readable or absent time is emitted. |
| Extract.GeneralPageDate | navernews/navernews/spiders/NewsSpider.py:545-555 | A general page whose time is printed the site's way is emitted with that time, in every copy of the parser. |
| Extract.UnreadableDateRaises | navernews/navernews/spiders/NewsSpider.py:545-555 | A present time node that cannot be read makes the parser raise instead of storing the raw text. |
| ListWalk.ParsedUrl | navernews/navernews/spiders/NewsSpider.py:401-402 | A missing `href` reaches `urlparse` as `None` and parses with no query at all. |
| ListWalk.ReadArticleLink | navernews/navernews/spiders/NewsSpider.py:400-404 | A link is read exactly into its `href` and the first `aid` of its query. It raises `KeyError('aid')` exactly when the `href` or the `aid` is missing. |
| ListWalk.ReadArticleLinks | navernews/navernews/spiders/NewsSpider.py:400-412 | Every link of a list is read, in order, the same way. |
| ListWalk.ArticleRequests | navernews/navernews/spiders/NewsSpider.py:400-406 | The link loop requests articles only, at most one per link. |
| ListWalk.ReadablePrefix | navernews/navernews/spiders/NewsSpider.py:400-404 | The links read before the first unreadable one are all readable, and the one after them, if any, is not. |
| ListWalk.ArticleRequestsAreWanted | navernews/navernews/spiders/NewsSpider.py:400-406 | The link loop requests exactly the links in front of the first unreadable one whose `aid` is not stored, in document order, and stops with the exception of that unreadable link. |
| ListWalk.ArticleRequestsFailure | navernews/navernews/spiders/NewsSpider.py:400-414 | The link loop finishes exactly when every link can be read. Otherwise it stops with the exception of the first link that cannot be read. |
| ListWalk.ArticleRequestsWanted | navernews/navernews/spiders/NewsSpider.py:400-406 | Every article request is the `href` of a readable link whose `aid` is not stored. |
| ListWalk.ArticleRequestsComplete | navernews/navernews/spiders/NewsSpider.py:400-406 | When the loop finishes, every readable link whose `aid` is not stored has been requested. |
| ListWalk.JoinedArticleRequestsAreWanted | navernews/navernews/spiders/NewsSpider.py:400-414 | The two link loops request the new headline links before the first unreadable one; only when every headline link was read do they go on to the new other links before their first unreadable one. The first unreadable link of either list ends the step with its exception. |
| ListWalk.AllArticleRequests | navernews/navernews/spiders/NewsSpider.py:400-414 | Both link loops of a page request articles only. |
| ListWalk.RequestedAidIsNew | navernews/navernews/spiders/NewsSpider.py:400-406 | Every requested article link carries an `aid` that is not stored. |
| ListWalk.StepRequestsNewArticles | navernews/navernews/spiders/NewsSpider.py:400-414 | No article the step requests is already stored. |
| ListWalk.DuplicateLinkRequestedTwice | navernews/navernews/spiders/NewsSpider.py:400-414 | The stored ids are not updated during a step, so a new article linked both as a headline and among the other links is requested twice. |
| ListWalk.MaxPage | navernews/navernews/spiders/NewsSpider.py:420-427 | The last numbered page is the largest number the pager shows, or 1 when it shows none. |
| ListWalk.NextPage | navernews/navernews/spiders/NewsSpider.py:429-445 | The next page of the same date is requested exactly when the current page is below the last numbered page, or past it with a "next" link. |
| ListWalk.PagingRule | navernews/navernews/spiders/NewsSpider.py:416-445 | On the last numbered page no next page is requested, even with a "next" link, and page 1 of a pager without numbers is the last. |
| ListWalk.ReadShortcutDate | navernews/navernews/spiders/NewsSpider.py:451-456 | A date shortcut is read as `int` of its first `date` value. It raises `KeyError('date')` exactly when the `href` or the `date` is missing, and `ValueError` exactly when the value is not a numeral. |
| ListWalk.ReadShortcutDates | navernews/navernews/spiders/NewsSpider.py:449-456 | Every shortcut of a page is read, in order, the same way. |
| ListWalk.ParseInt | navernews/navernews/spiders/NewsSpider.py:456 | `int()` accepts exactly an optional sign followed by decimal digits, and gives a non-negative number when there is no minus sign. |
| ListWalk.DecimalValueOfDecimal | navernews/navernews/spiders/NewsSpider.py:456 | The digits `int()` reads are worth the number they were printed from. |
| ListWalk.ParseIntOfDecimal | navernews/navernews/spiders/NewsSpider.py:456 | `int()` reads the decimal spelling of every natural number back as that number, and with a leading `+` or `-` as it or its negation. |
| ListWalk.ParseIntOfShortcutDate | navernews/navernews/spiders/NewsSpider.py:456 | An illustration of `ListWalk.ParseIntOfDecimal`: the shortcut date `20200301` is read as the number 20200301. |
| ListWalk.FirstRollover | navernews/navernews/spiders/NewsSpider.py:447-462 | The rollover requests at most one list. That list is page 1 of an older date not before `end_date`, with the same `end_date`, and the scan returns after it without failing. |
| ListWalk.RolloverIsFirst | navernews/navernews/spiders/NewsSpider.py:450-462 | The rollover goes to the first shortcut in the window. Every shortcut before it was readable and outside the window. |
| ListWalk.NoRollover | navernews/navernews/spiders/NewsSpider.py:450-462 | Without a rollover and without an exception, every shortcut was readable and outside the window. |
| ListWalk.RolloverFailure | navernews/navernews/spiders/NewsSpider.py:450-456 | The scan raises an exception exactly when some shortcut is unreadable with it and every shortcut before it was readable and outside the window. |
| ListWalk.ListRequests | navernews/navernews/spiders/NewsSpider.py:429-462 | After the links a step yields the next page of the same date first, exactly when the pager calls for one. On a page other than 1 that is all, and it cannot fail. On page 1 the scan's rollover request and exception follow. Every request is a successor task, and a change of date happens only on page 1, as the last request. |
| ListWalk.NextPageThenRollover | navernews/navernews/spiders/NewsSpider.py:429-462 | On page 1 of a date with more pages the step requests page 2 first and the older date second. |
| ListWalk.Step | navernews/navernews/spiders/NewsSpider.py:382-462 | The step starts with the article requests of the link loops, in order, and an exception there ends it. Otherwise the list requests of the page follow them and their exception is the step's. Its list requests are successor tasks with the same `end_date`, and a change of date comes only from page 1 and ends the step. |
| ListWalk.WalkBounds | navernews/navernews/spiders/NewsSpider.py:429-462 | Along any chain of list requests `end_date` is fixed and dates never increase. After the first change the date is never before `end_date`, and the number of date changes is at most the difference of the first and last dates as `yyyymmdd` numbers. |
| ListWalk.WalkVisitsFewDates | navernews/navernews/spiders/NewsSpider.py:456-461 | A walk that starts inside its window stays between `end_date` and its first date. It changes date at most `date - end_date` times. |
| ListWalk.StepExtendsWalk | navernews/navernews/spiders/NewsSpider.py:429-462 | Every list request of a step extends the walk that reached it. |

## Left out

- Scrapy itself is not modelled: request scheduling, callbacks, `meta`, duplicate filtering and the order in which responses arrive. So are the spiders' `__init__` (the database reads that fill the stored ids and the start requests), the item pipelines and the database modules. The stored ids are a parameter (`known`).
- XPath evaluation is not modelled; a page is the record of what each lookup returns.
- The w3lib functions `replace_entities`, `remove_tags_with_content`, `remove_comments` and `remove_tags` are parameters of `CleanHtml.Clean`, not definitions.
- `Query.QueryValue`: percent-decoding, `+` to space, the `;` separator of older Python versions, `max_num_fields`, the stripping of control characters by `urlsplit`, and scheme/netloc parsing are not modelled. Only the `?`/`#` split and the `&`/`=` split are.
- `Dates.Strptime` reads the fixed format the way CPython's `_strptime` pattern does, with ASCII digits only. It models no locale other than `AM`/`PM`, no Unicode digits matched by `\d`, and no other format directives. It is not the library's code.
- `ListWalk.ReadShortcutDate`: `int()` is modelled for an optional sign and ASCII digits. It models no surrounding whitespace, no `_` separators and no non-ASCII digits.
- The `int()` of the pager's page numbers is not modelled. The numbers are given as integers, so a non-numeric pager entry (a `ValueError` in the source) is not represented.
- List dates and pages are numbers in the model. The source passes them through `meta` and compares `crawl_page == 1` on whatever type was stored there.
- `print` logging is left out; it does not affect the output.
- The `News` spider's `Rule`/`LinkExtractor` traversal is configuration of Scrapy and is not modelled. Its article parser is modelled as `Variant.AutoFollow`.
- The item fields are not checked against the item class's field list. A `NewsItem` record stands for the item.

=== FILE: clean_html.dfy ===
/** `clean_html` from navernews/tools.py: turns the markup of an article
    body into plain text. The four w3lib helpers it calls are not modelled;
    they are passed in as functions, so every statement below holds for any
    implementation of them. */
module CleanHtml {
  import opened Wrappers
  import opened Whitespace

  /** The w3lib.html functions the normaliser composes. */
  datatype HtmlLib = HtmlLib(
    replaceEntities: string -> string,
    removeTagsWithContent: (string, seq<string>) -> string,
    removeComments: string -> string,
    removeTags: string -> string)

  /** Elements dropped together with everything inside them. */
  const DroppedTags: seq<string> := ["script", "a", "h4"]

  /** The markup stages in their fixed order: decode entities, drop the
      `script`, `a` and `h4` elements with their content, decode entities
      again, drop comments, then drop the remaining tags but keep their text. */
  function Stripped(lib: HtmlLib, text: string): string {
    var body := lib.replaceEntities(text);
    var body' := lib.replaceEntities(lib.removeTagsWithContent(body, DroppedTags));
    lib.removeTags(lib.removeComments(body'))
  }

  /** `clean_html(text)`: `None` passes through unchanged; anything else comes
      back as the collapsed form of the stripped body, which keeps every word
      of that body, in order, and has no leading, trailing or doubled blank. */
  function Clean(lib: HtmlLib, text: Option<string>): (r: Option<string>)
    ensures r.None? <==> text.None?
    ensures r.Some? ==> IsCollapsed(r.value)
    ensures r.Some? ==> Words(r.value) == Words(Stripped(lib, text.value))
  {
    match text
    case None => None
    case Some(t) => Some(Collapse(Stripped(lib, t)))
  }
}

=== FILE: copyright.dfy ===
/** The body text of an article page: text nodes are extracted line by line,
    copyright notices are dropped, the rest is joined and its blanks
    collapsed, and the first extraction path that yields any text wins. */
module Copyright {
  import opened Text
  import opened Whitespace

  const NoticeTight := "무단전재 및 재배포 금지"
  const NoticeSpaced := "무단 전재 및 재배포 금지"
  const CopyrightSign := "ⓒ"

  /** A line the parser treats as a copyright notice. */
  predicate IsCopyrightLine(line: string) {
    Contains(line, NoticeTight) || Contains(line, NoticeSpaced) || Contains(line, CopyrightSign)
  }

  // ---------------------------------------------------------------------
  // The reference: which lines may be dropped
  // ---------------------------------------------------------------------

  /** `ys` is `xs` with some elements left out, the rest in their order. */
  predicate IsSubsequence(ys: seq<string>, xs: seq<string>)
    decreases |xs|
  {
    if |ys| == 0 then true
    else if |xs| == 0 then false
    else if ys[0] == xs[0] then IsSubsequence(ys[1..], xs[1..])
    else IsSubsequence(ys, xs[1..])
  }

  /** The lines that are not copyright notices, in order. */
  function Ordinary(xs: seq<string>): (r: seq<string>)
    ensures forall i | 0 <= i < |r| :: !IsCopyrightLine(r[i])
    decreases |xs|
  {
    if |xs| == 0 then []
    else if IsCopyrightLine(xs[0]) then Ordinary(xs[1..])
    else [xs[0]] + Ordinary(xs[1..])
  }

  /** `ys` came from `xs` by dropping copyright notices only: it keeps the
      surviving lines in order and every ordinary line is still there. */
  predicate DropsOnlyNotices(xs: seq<string>, ys: seq<string>) {
    IsSubsequence(ys, xs) && Ordinary(ys) == Ordinary(xs)
  }

  lemma {:induction false} SubsequenceRefl(xs: seq<string>)
    ensures IsSubsequence(xs, xs)
    decreases |xs|
  {
    if |xs| > 0 {
      SubsequenceRefl(xs[1..]);
    }
  }

  lemma {:induction false} SubsequenceTrans(zs: seq<string>, ys: seq<string>, xs: seq<string>)
    requires IsSubsequence(zs, ys) && IsSubsequence(ys, xs)
    ensures IsSubsequence(zs, xs)
    decreases |xs|
  {
    if |zs| == 0 {
    } else if |ys| == 0 {
    } else if ys[0] == xs[0] {
      if zs[0] == ys[0] {
        SubsequenceTrans(zs[1..], ys[1..], xs[1..]);
      } else {
        SubsequenceTrans(zs, ys[1..], xs[1..]);
        SubsequenceExtend(zs, xs);
      }
    } else {
      SubsequenceTrans(zs, ys, xs[1..]);
      SubsequenceExtend(zs, xs);
    }
  }

  /** A subsequence of the tail is a subsequence of the whole. */
  lemma {:induction false} SubsequenceExtend(ys: seq<string>, xs: seq<string>)
    requires |xs| > 0 && IsSubsequence(ys, xs[1..])
    ensures IsSubsequence(ys, xs)
    decreases |xs|, 0
  {
    if |ys| > 0 && ys[0] == xs[0] {
      SubsequenceDropHead(ys, xs[1..]);
    }
  }

  /** Leaving out the first element keeps a subsequence a subsequence. */
  lemma {:induction false} SubsequenceDropHead(ys: seq<string>, xs: seq<string>)
    requires |ys| > 0 && IsSubsequence(ys, xs)
    ensures IsSubsequence(ys[1..], xs)
    decreases |xs|, 1
  {
    if ys[0] == xs[0] {
      SubsequenceExtend(ys[1..], xs);
    } else {
      SubsequenceDropHead(ys, xs[1..]);
      SubsequenceExtend(ys[1..], xs);
    }
  }

  /** Dropping notices twice is dropping notices. */
  lemma DropsOnlyNoticesTrans(xs: seq<string>, ys: seq<string>, zs: seq<string>)
    requires DropsOnlyNotices(xs, ys) && DropsOnlyNotices(ys, zs)
    ensures DropsOnlyNotices(xs, zs)
  {
    SubsequenceTrans(zs, ys, xs);
  }

  // ---------------------------------------------------------------------
  // list.index and del
  // ---------------------------------------------------------------------

  /** `xs.index(x)`: the position of the first element equal to `x`. */
  function IndexOf(xs: seq<string>, x: string): (i: nat)
    requires x in xs
    ensures i < |xs| && xs[i] == x && x !in xs[..i]
    decreases |xs|
  {
    if xs[0] == x then 0
    else
      var j := IndexOf(xs[1..], x);
      assert xs[..j + 1] == [xs[0]] + xs[1..][..j];
      j + 1
  }

  /** `del xs[xs.index(x)]`: removes the first element equal to `x` and
      keeps the others in their order. */
  function RemoveFirst(xs: seq<string>, x: string): (r: seq<string>)
    requires x in xs
    ensures |r| == |xs| - 1
    ensures r == xs[..IndexOf(xs, x)] + xs[IndexOf(xs, x) + 1..]
    decreases |xs|
  {
    if xs[0] == x then
      assert xs[..0] + xs[1..] == xs[1..];
      xs[1..]
    else
      ConsOfSplit(xs, IndexOf(xs[1..], x));
      [xs[0]] + RemoveFirst(xs[1..], x)
  }

  /** Putting the head back in front of the tail without its `j`-th element
      gives the whole without its `j + 1`-th. */
  lemma ConsOfSplit(xs: seq<string>, j: nat)
    requires j + 1 < |xs|
    ensures [xs[0]] + (xs[1..][..j] + xs[1..][j + 1..]) == xs[..j + 1] + xs[j + 2..]
  {
    assert xs[..j + 1] == [xs[0]] + xs[1..][..j];
    assert xs[j + 2..] == xs[1..][j + 1..];
  }

  /** Removing one notice drops a notice only. */
  lemma {:induction false} RemoveFirstDropsNotice(xs: seq<string>, x: string)
    requires x in xs && IsCopyrightLine(x)
    ensures DropsOnlyNotices(xs, RemoveFirst(xs, x))
    decreases |xs|
  {
    if xs[0] == x {
      SubsequenceRefl(xs[1..]);
      SubsequenceExtend(xs[1..], xs);
    } else {
      RemoveFirstDropsNotice(xs[1..], x);
      var r := RemoveFirst(xs[1..], x);
      assert ([xs[0]] + r)[1..] == r;
    }
  }

  // ---------------------------------------------------------------------
  // The loop over content_tmp
  // ---------------------------------------------------------------------

  /** `for line in content_tmp: if notice: del content_tmp[content_tmp.index(line)]`
      from the `i`-th step on. Python's list iterator reads position `i` of
      the list as it is now, so after a deletion the next line moves into
      the slot just visited and is skipped. Every step only ever drops
      notices. */
  function SweepFrom(xs: seq<string>, i: nat): (r: seq<string>)
    ensures DropsOnlyNotices(xs, r)
    decreases |xs| - i
  {
    if i >= |xs| then
      SubsequenceRefl(xs);
      xs
    else if IsCopyrightLine(xs[i]) then
      var ys := RemoveFirst(xs, xs[i]);
      RemoveFirstDropsNotice(xs, xs[i]);
      var r := SweepFrom(ys, i + 1);
      DropsOnlyNoticesTrans(xs, ys, r);
      r
    else SweepFrom(xs, i + 1)
  }

  /** The copyright-removal loop run over a whole list of lines. It drops
      copyright notices and nothing else: the survivors keep their order and
      every ordinary line survives. */
  function RemoveCopyrightLines(lines: seq<string>): (r: seq<string>)
    ensures DropsOnlyNotices(lines, r)
  {
    SweepFrom(lines, 0)
  }

  /** A list without notices comes through the loop unchanged. */
  lemma {:induction false} SweepWithoutNotices(xs: seq<string>, i: nat)
    requires forall k | 0 <= k < |xs| :: !IsCopyrightLine(xs[k])
    ensures SweepFrom(xs, i) == xs
    decreases |xs| - i
  {
    if i < |xs| {
      SweepWithoutNotices(xs, i + 1);
    }
  }

  /** Two notices side by side: the loop deletes the first and then skips
      over the second, which survives. */
  lemma AdjacentNotices(a: string, b: string)
    requires IsCopyrightLine(a) && IsCopyrightLine(b)
    ensures RemoveCopyrightLines([a, b]) == [b]
  {
    assert RemoveFirst([a, b], a) == [b];
    assert SweepFrom([b], 1) == [b];
  }

  /** The deletion goes by value: a notice met later deletes the first equal
      line, not itself. With the same notice `c` in slots 0, 1 and 3 and an
      ordinary line `x` in slot 2, the line that survives is the last `c`. */
  lemma DeletionByValue(c: string, x: string)
    requires IsCopyrightLine(c) && !IsCopyrightLine(x)
    ensures RemoveCopyrightLines([c, c, x, c]) == [x, c]
  {
    assert RemoveFirst([c, c, x, c], c) == [c, x, c];
    assert [c, x, c][1] == x;
    assert SweepFrom([c, x, c], 1) == SweepFrom([c, x, c], 2);
    assert RemoveFirst([c, x, c], c) == [x, c];
    assert SweepFrom([x, c], 3) == [x, c];
  }

  // ---------------------------------------------------------------------
  // Joining and the fallback chain
  // ---------------------------------------------------------------------

  /** `" ".join((" ".join(content_tmp)).split())` after the removal loop. */
  function JoinedContent(lines: seq<string>): (r: string)
    ensures IsCollapsed(r)
    ensures Words(r) == Words(JoinOn(RemoveCopyrightLines(lines), ' '))
  {
    Collapse(JoinOn(RemoveCopyrightLines(lines), ' '))
  }

  /** Without notices the content is the collapsed join of all lines. */
  lemma JoinedContentWithoutNotices(lines: seq<string>)
    requires forall k | 0 <= k < |lines| :: !IsCopyrightLine(lines[k])
    ensures JoinedContent(lines) == Collapse(JoinOn(lines, ' '))
  {
    SweepWithoutNotices(lines, 0);
  }

  /** The fallback chain: the joined content of the first extraction path
      whose joined content is not empty, or `""` when every path is empty. */
  function FirstNonEmpty(candidates: seq<seq<string>>): (r: string)
    ensures IsCollapsed(r)
    ensures r == "" <==> forall k | 0 <= k < |candidates| :: JoinedContent(candidates[k]) == ""
    ensures r != "" ==> exists k | 0 <= k < |candidates| ::
      && r == JoinedContent(candidates[k])
      && forall j | 0 <= j < k :: JoinedContent(candidates[j]) == ""
    decreases |candidates|
  {
    if |candidates| == 0 then ""
    else
      var first := JoinedContent(candidates[0]);
      if first != "" then first else FirstNonEmpty(candidates[1..])
  }

  /** A first path with text settles the chain. */
  lemma FirstNonEmptyHead(candidates: seq<seq<string>>)
    requires |candidates| > 0 && JoinedContent(candidates[0]) != ""
    ensures FirstNonEmpty(candidates) == JoinedContent(candidates[0])
  {
  }
}

=== FILE: dates.dfy ===
/** The publish-time handling of the article parser: the page shows a
    timestamp such as `2020.03.24. 오후 03:15`; the parser turns `오전` and
    `오후` into `AM` and `PM` (after dropping `기사입력 ` on sports pages) and
    hands the result to `datetime.strptime(text, '%Y.%m.%d. %p %I:%M')`.

    `Strptime` below is a fixed-field reading of that one format written for
    this model (it is not code of the repository): each directive accepts
    exactly what the regular expression CPython builds for it accepts, a
    blank in the format matches one or more blanks, `AM`/`PM` match in any
    letter case, and the date must exist in the proleptic Gregorian
    calendar. */
module Dates {
  import opened Wrappers
  import opened Text
  import Whitespace

  datatype DateTime = DateTime(year: int, month: int, day: int, hour: int, minute: int)

  predicate IsLeapYear(y: int) {
    y % 4 == 0 && (y % 100 != 0 || y % 400 == 0)
  }

  function DaysInMonth(y: int, m: int): int
    requires 1 <= m <= 12
  {
    if m == 2 then (if IsLeapYear(y) then 29 else 28)
    else if m == 4 || m == 6 || m == 9 || m == 11 then 30
    else 31
  }

  /** What `datetime.datetime(year, month, day, hour, minute)` accepts. */
  predicate ValidDateTime(dt: DateTime) {
    && 1 <= dt.year <= 9999
    && 1 <= dt.month <= 12
    && 1 <= dt.day <= DaysInMonth(dt.year, dt.month)
    && 0 <= dt.hour < 24
    && 0 <= dt.minute < 60
  }

  // ---------------------------------------------------------------------
  // 12-hour clock
  // ---------------------------------------------------------------------

  /** The hour `%I` shows for a 24-hour clock hour. */
  function Hour12(hour: int): (h12: int)
    requires 0 <= hour < 24
    ensures 1 <= h12 <= 12
  {
    if hour % 12 == 0 then 12 else hour % 12
  }

  /** How `strptime` combines `%I` with `%p`: 12 AM is midnight, 12 PM is
      noon, any other PM hour moves up by twelve. The result is in the
      afternoon exactly for PM, and shows the same `%I` again. */
  function Hour24(h12: int, pm: bool): (hour: int)
    requires 1 <= h12 <= 12
    ensures 0 <= hour < 24
    ensures hour >= 12 <==> pm
    ensures Hour12(hour) == h12
  {
    if pm then (if h12 == 12 then 12 else h12 + 12)
    else (if h12 == 12 then 0 else h12)
  }

  /** The two clocks are in one-to-one correspondence. */
  lemma HourRoundTrip(hour: int)
    requires 0 <= hour < 24
    ensures Hour24(Hour12(hour), hour >= 12) == hour
  {
  }

  // ---------------------------------------------------------------------
  // Digits
  // ---------------------------------------------------------------------

  function DigitValue(c: char): int
    requires IsDigit(c)
  {
    c as int - '0' as int
  }

  function DigitChar(d: int): (c: char)
    requires 0 <= d < 10
    ensures IsDigit(c) && DigitValue(c) == d
  {
    ('0' as int + d) as char
  }

  /** A zero-padded two-digit field. */
  function Digits2(n: int): (s: string)
    requires 0 <= n < 100
    ensures |s| == 2 && IsDigit(s[0]) && IsDigit(s[1])
    ensures 10 * DigitValue(s[0]) + DigitValue(s[1]) == n
  {
    [DigitChar(n / 10), DigitChar(n % 10)]
  }

  /** A zero-padded four-digit field. */
  function Digits4(n: int): (s: string)
    requires 0 <= n < 10000
    ensures |s| == 4 && IsDigit(s[0]) && IsDigit(s[1]) && IsDigit(s[2]) && IsDigit(s[3])
    ensures 1000 * DigitValue(s[0]) + 100 * DigitValue(s[1]) + 10 * DigitValue(s[2]) + DigitValue(s[3]) == n
  {
    var hi := Digits2(n / 100);
    var lo := Digits2(n % 100);
    hi + lo
  }

  // ---------------------------------------------------------------------
  // The directives of '%Y.%m.%d. %p %I:%M'
  // ---------------------------------------------------------------------

  /** A value read from the front of a string and what is left after it. */
  datatype Scan = Scan(value: int, rest: string)

  /** A scan whose value lies in `lo..hi`, or `None`. */
  function InRange(o: Option<Scan>, lo: int, hi: int): (r: Option<Scan>)
    ensures r.Some? <==> o.Some? && lo <= o.value.value <= hi
    ensures r.Some? ==> r == o
  {
    if o.Some? && lo <= o.value.value <= hi then o else None
  }

  /** `%Y` followed by `.`: exactly four digits. */
  function YearThenDot(s: string): Option<Scan> {
    if |s| >= 5 && IsDigit(s[0]) && IsDigit(s[1]) && IsDigit(s[2]) && IsDigit(s[3]) && s[4] == '.' then
      Some(Scan(1000 * DigitValue(s[0]) + 100 * DigitValue(s[1]) + 10 * DigitValue(s[2]) + DigitValue(s[3]), s[5..]))
    else None
  }

  /** `%m` or `%I` followed by the delimiter `term`: one or two digits (the
      range is checked by the caller). */
  function NumberThen(s: string, term: char): Option<Scan> {
    if |s| >= 2 && IsDigit(s[0]) && s[1] == term then
      Some(Scan(DigitValue(s[0]), s[2..]))
    else if |s| >= 3 && IsDigit(s[0]) && IsDigit(s[1]) && s[2] == term then
      Some(Scan(10 * DigitValue(s[0]) + DigitValue(s[1]), s[3..]))
    else None
  }

  /** `%d` followed by `.`: like `NumberThen`, and also a blank then one digit
      `1`..`9` (the ` [1-9]` alternative of CPython's pattern). */
  function DayThenDot(s: string): Option<Scan> {
    if |s| >= 3 && s[0] == ' ' && '1' <= s[1] <= '9' && s[2] == '.' then
      Some(Scan(DigitValue(s[1]), s[3..]))
    else NumberThen(s, '.')
  }

  /** A blank of the format: one or more blanks of the input. */
  function Blanks(s: string): Option<string> {
    if |s| > 0 && IsSpace(s[0]) then Some(Whitespace.SkipSpaces(s)) else None
  }

  function LowerAscii(c: char): char {
    if 'A' <= c <= 'Z' then (c as int + 32) as char else c
  }

  /** `%p`: `am` or `pm` in any letter case; the value is 1 for PM. */
  function Meridiem(s: string): Option<Scan> {
    if |s| >= 2 && LowerAscii(s[1]) == 'm' && LowerAscii(s[0]) == 'a' then Some(Scan(0, s[2..]))
    else if |s| >= 2 && LowerAscii(s[1]) == 'm' && LowerAscii(s[0]) == 'p' then Some(Scan(1, s[2..]))
    else None
  }

  /** `%M` at the end of the input: `[0-5]\d` or a single digit. */
  function MinuteAtEnd(s: string): (r: Option<int>)
    ensures r.Some? ==> 0 <= r.value <= 59
  {
    if |s| == 1 && IsDigit(s[0]) then Some(DigitValue(s[0]))
    else if |s| == 2 && '0' <= s[0] <= '5' && IsDigit(s[1]) then Some(10 * DigitValue(s[0]) + DigitValue(s[1]))
    else None
  }

  /** The calendar fields in front of the first blank, and what follows them. */
  datatype DateFields = DateFields(year: int, month: int, day: int, rest: string)

  /** `%Y.%m.%d.` with each field in the range its pattern allows. */
  function ReadDate(s: string): Option<DateFields> {
    var year :- YearThenDot(s);
    var month :- InRange(NumberThen(year.rest, '.'), 1, 12);
    var day :- InRange(DayThenDot(month.rest), 1, 31);
    Some(DateFields(year.value, month.value, day.value, day.rest))
  }

  /** The clock fields: whether it is afternoon, the `%I` hour and the minute. */
  datatype ClockFields = ClockFields(pm: bool, hour12: int, minute: int)

  /** ` %p %I:%M` up to the end of the input. */
  function ReadClock(s: string): (r: Option<ClockFields>)
    ensures r.Some? ==> 1 <= r.value.hour12 <= 12 && 0 <= r.value.minute <= 59
  {
    var afterDate :- Blanks(s);
    var meridiem :- Meridiem(afterDate);
    var afterMeridiem :- Blanks(meridiem.rest);
    var hour :- InRange(NumberThen(afterMeridiem, ':'), 1, 12);
    var minute :- MinuteAtEnd(hour.rest);
    Some(ClockFields(meridiem.value == 1, hour.value, minute))
  }

  /** `datetime.strptime(s, '%Y.%m.%d. %p %I:%M')`; `None` is the
      `ValueError` it raises. Whatever it returns is a real calendar time. */
  function Strptime(s: string): (r: Option<DateTime>)
    ensures r.Some? ==> ValidDateTime(r.value)
  {
    var date :- ReadDate(s);
    var clock :- ReadClock(date.rest);
    var dt := DateTime(date.year, date.month, date.day, Hour24(clock.hour12, clock.pm), clock.minute);
    if ValidDateTime(dt) then Some(dt) else None
  }

  // ---------------------------------------------------------------------
  // The timestamp as the site prints it
  // ---------------------------------------------------------------------

  /** `2020.03.24. ` */
  function DatePart(dt: DateTime): string
    requires ValidDateTime(dt)
  {
    Digits4(dt.year) + "." + Digits2(dt.month) + "." + Digits2(dt.day) + ". "
  }

  /** ` 03:15` */
  function TimePart(dt: DateTime): string
    requires ValidDateTime(dt)
  {
    " " + Digits2(Hour12(dt.hour)) + ":" + Digits2(dt.minute)
  }

  /** The timestamp with the given words for morning and afternoon. */
  function Stamp(dt: DateTime, am: string, pm: string): string
    requires ValidDateTime(dt)
  {
    DatePart(dt) + (if dt.hour >= 12 then pm else am) + TimePart(dt)
  }

  const AmMarker := "오전"
  const PmMarker := "오후"
  const SportsPrefix := "기사입력 "

  lemma YearThenDotOf(year: int, rest: string)
    requires 0 <= year < 10000
    ensures YearThenDot(Digits4(year) + "." + rest) == Some(Scan(year, rest))
  {
    var s := Digits4(year) + "." + rest;
    assert s[5..] == rest;
  }

  lemma NumberThenOf(n: int, term: char, rest: string)
    requires 0 <= n < 100 && !IsDigit(term)
    ensures NumberThen(Digits2(n) + [term] + rest, term) == Some(Scan(n, rest))
  {
    var s := Digits2(n) + [term] + rest;
    assert s[3..] == rest;
  }

  lemma DayThenDotOf(n: int, rest: string)
    requires 0 <= n < 100
    ensures DayThenDot(Digits2(n) + "." + rest) == Some(Scan(n, rest))
  {
    NumberThenOf(n, '.', rest);
    assert Digits2(n) + "." + rest == Digits2(n) + ['.'] + rest;
  }

  lemma BlanksOf(rest: string)
    requires |rest| > 0 && !IsSpace(rest[0])
    ensures Blanks(" " + rest) == Some(rest)
  {
    assert (" " + rest)[1..] == rest;
  }

  lemma MeridiemOf(pm: bool, rest: string)
    ensures Meridiem((if pm then "PM" else "AM") + rest) == Some(Scan(if pm then 1 else 0, rest))
  {
    var s := (if pm then "PM" else "AM") + rest;
    assert s[2..] == rest;
  }

  /** The English stamp spelled out field by field. */
  lemma StampShape(dt: DateTime)
    requires ValidDateTime(dt)
    ensures Stamp(dt, "AM", "PM")
      == Digits4(dt.year) + "." + (Digits2(dt.month) + ['.'] + (Digits2(dt.day) + "." + (" " + ((if dt.hour >= 12 then "PM" else "AM") + (" " + (Digits2(Hour12(dt.hour)) + [':'] + Digits2(dt.minute)))))))
  {
  }

  lemma {:induction false} ReadDateOf(dt: DateTime, rest: string)
    requires ValidDateTime(dt)
    ensures ReadDate(Digits4(dt.year) + "." + (Digits2(dt.month) + ['.'] + (Digits2(dt.day) + "." + rest)))
      == Some(DateFields(dt.year, dt.month, dt.day, rest))
  {
    var r2 := Digits2(dt.day) + "." + rest;
    var r1 := Digits2(dt.month) + ['.'] + r2;
    YearThenDotOf(dt.year, r1);
    NumberThenOf(dt.month, '.', r2);
    DayThenDotOf(dt.day, rest);
  }

  lemma {:induction false} ReadClockOf(pm: bool, h12: int, minute: int)
    requires 1 <= h12 <= 12 && 0 <= minute < 60
    ensures ReadClock(" " + ((if pm then "PM" else "AM") + (" " + (Digits2(h12) + [':'] + Digits2(minute)))))
      == Some(ClockFields(pm, h12, minute))
  {
    var mi := Digits2(minute);
    var r6 := Digits2(h12) + [':'] + mi;
    var r4 := (if pm then "PM" else "AM") + (" " + r6);
    assert r4[0] == (if pm then 'P' else 'A');
    BlanksOf(r4);
    MeridiemOf(pm, " " + r6);
    assert r6[0] == Digits2(h12)[0];
    BlanksOf(r6);
    NumberThenOf(h12, ':', mi);
    assert InRange(NumberThen(r6, ':'), 1, 12) == Some(Scan(h12, mi));
    MinuteAtEndOf(minute);
  }

  lemma MinuteAtEndOf(minute: int)
    requires 0 <= minute < 60
    ensures MinuteAtEnd(Digits2(minute)) == Some(minute)
  {
    var mi := Digits2(minute);
    assert mi[0] == DigitChar(minute / 10);
  }

  /** `Stamp(dt, "AM", "PM")` is read back by `Strptime` as `dt`: the printed
      form and the parser agree on every valid time. */
  lemma {:induction false} StrptimeOfStamp(dt: DateTime)
    requires ValidDateTime(dt)
    ensures Strptime(Stamp(dt, "AM", "PM")) == Some(dt)
  {
    var pm := dt.hour >= 12;
    var clock := " " + ((if pm then "PM" else "AM") + (" " + (Digits2(Hour12(dt.hour)) + [':'] + Digits2(dt.minute))));
    StampShape(dt);
    ReadDateOf(dt, clock);
    ReadClockOf(pm, Hour12(dt.hour), dt.minute);
    HourRoundTrip(dt.hour);
  }

  // ---------------------------------------------------------------------
  // Preprocessing and the publish-time field
  // ---------------------------------------------------------------------

  /** The text handed to `strptime`: on sports pages every `기사입력 ` is
      removed first, then every `오전` becomes `AM` and every `오후` becomes
      `PM`. The markers are as long as their replacements, so only the
      sports prefix can shorten the text. */
  function Preprocess(text: string, sports: bool): (r: string)
    ensures |r| <= |text|
    ensures !sports ==> |r| == |text|
  {
    var t := if sports then ReplaceAll(text, SportsPrefix, "") else text;
    ReplaceAll(ReplaceAll(t, AmMarker, "AM"), PmMarker, "PM")
  }

  /** The `ValueError` of a present but unreadable timestamp, which the
      parser does not catch. */
  datatype DateFailure = DateValueError

  /** `news_date`: an absent node gives `None` (the caught `AttributeError`);
      a present one is preprocessed and parsed, the parsed time is stored,
      and a parse failure is raised. */
  function PublishDate(text: Option<string>, sports: bool): (r: Result<Option<DateTime>, DateFailure>)
    ensures text.None? ==> r == Ok(None)
    ensures text.Some? ==> (r.Err? <==> Strptime(Preprocess(text.value, sports)).None?)
    ensures r.Ok? && r.value.Some? ==> ValidDateTime(r.value.value)
    ensures text.Some? && r.Ok? ==> r.value.Some? && r.value == Strptime(Preprocess(text.value, sports))
  {
    match text
    case None => Ok(None)
    case Some(t) =>
      match Strptime(Preprocess(t, sports))
      case None => Err(DateValueError)
      case Some(dt) => Ok(Some(dt))
  }

  /** After preprocessing neither Korean marker is left, on any page. */
  lemma PreprocessRemovesMarkers(text: string, sports: bool)
    ensures !Contains(Preprocess(text, sports), AmMarker)
    ensures !Contains(Preprocess(text, sports), PmMarker)
  {
    var t := if sports then ReplaceAll(text, SportsPrefix, "") else text;
    var t1 := ReplaceAll(t, AmMarker, "AM");
    ReplaceAllRemovesPattern(t, AmMarker, "AM");
    ReplaceAllRemovesPattern(t1, PmMarker, "PM");
    ReplaceAllKeepsAbsent(t1, PmMarker, "PM", AmMarker);
  }

  /** Text without the markers (and, on sports pages, without the prefix)
      reaches `strptime` untouched. */
  lemma PreprocessOfPlain(text: string, sports: bool)
    requires !Contains(text, AmMarker) && !Contains(text, PmMarker)
    requires sports ==> !Contains(text, SportsPrefix)
    ensures Preprocess(text, sports) == text
  {
    if sports {
      ReplaceAllAbsent(text, SportsPrefix, "");
    }
    ReplaceAllAbsent(text, AmMarker, "AM");
    ReplaceAllAbsent(text, PmMarker, "PM");
  }

  /** The characters a printed date or clock is made of. */
  predicate IsStampChar(c: char) {
    IsDigit(c) || c == '.' || c == ' ' || c == ':'
  }

  lemma StampParts(dt: DateTime)
    requires ValidDateTime(dt)
    ensures forall c | c in DatePart(dt) :: IsStampChar(c)
    ensures forall c | c in TimePart(dt) :: IsStampChar(c)
  {
  }

  /** An afternoon marker between marker-free text is turned into `PM`. */
  lemma {:induction false} ReplacePmMarker(p: string, t: string)
    requires '오' !in p && '오' !in t
    ensures ReplaceAll(ReplaceAll(p + (PmMarker + t), AmMarker, "AM"), PmMarker, "PM") == p + ("PM" + t)
  {
    var u := PmMarker + t;
    ReplaceAllSkipsPrefix(p, u, AmMarker, "AM");
    assert u[..2] != AmMarker by { assert u[1] == '후'; }
    assert u[1..] == "후" + t;
    ReplaceAllWithout("후" + t, AmMarker, "AM");
    assert ReplaceAll(u, AmMarker, "AM") == u;
    ReplaceAllSkipsPrefix(p, u, PmMarker, "PM");
    ReplaceAllAtPattern(t, PmMarker, "PM");
    ReplaceAllWithout(t, PmMarker, "PM");
  }

  /** A morning marker between marker-free text is turned into `AM`. */
  lemma {:induction false} ReplaceAmMarker(p: string, t: string)
    requires '오' !in p && '오' !in t
    ensures ReplaceAll(ReplaceAll(p + (AmMarker + t), AmMarker, "AM"), PmMarker, "PM") == p + ("AM" + t)
  {
    ReplaceAllSkipsPrefix(p, AmMarker + t, AmMarker, "AM");
    ReplaceAllAtPattern(t, AmMarker, "AM");
    ReplaceAllWithout(t, AmMarker, "AM");
    var e := p + ("AM" + t);
    assert '오' !in e;
    ReplaceAllWithout(e, PmMarker, "PM");
  }

  /** The page's stamp `yyyy.mm.dd. 오전|오후 hh:mm` becomes the English stamp. */
  lemma PreprocessOfKoreanStamp(dt: DateTime)
    requires ValidDateTime(dt)
    ensures Preprocess(Stamp(dt, AmMarker, PmMarker), false) == Stamp(dt, "AM", "PM")
  {
    var p := DatePart(dt);
    var t := TimePart(dt);
    StampParts(dt);
    assert '오' !in p && '오' !in t;
    if dt.hour >= 12 {
      assert Stamp(dt, AmMarker, PmMarker) == p + (PmMarker + t);
      ReplacePmMarker(p, t);
    } else {
      assert Stamp(dt, AmMarker, PmMarker) == p + (AmMarker + t);
      ReplaceAmMarker(p, t);
    }
  }

  /** The sports page's `기사입력 ` in front of the stamp is dropped there and
      nowhere else. */
  lemma SportsPrefixDropped(dt: DateTime)
    requires ValidDateTime(dt)
    ensures Preprocess(SportsPrefix + Stamp(dt, AmMarker, PmMarker), true) == Preprocess(Stamp(dt, AmMarker, PmMarker), false)
    ensures Preprocess(Stamp(dt, AmMarker, PmMarker), true) == Preprocess(Stamp(dt, AmMarker, PmMarker), false)
  {
    var k := Stamp(dt, AmMarker, PmMarker);
    StampParts(dt);
    assert '기' !in k;
    ReplaceAllAtPattern(k, SportsPrefix, "");
    ReplaceAllWithout(k, SportsPrefix, "");
    assert "" + k == k;
  }

  /** Every stamp the site prints is read as the time it shows, on sports
      pages with or without the `기사입력 ` prefix. */
  lemma PublishDateOfStamp(dt: DateTime)
    requires ValidDateTime(dt)
    ensures PublishDate(Some(Stamp(dt, AmMarker, PmMarker)), false) == Ok(Some(dt))
    ensures PublishDate(Some(Stamp(dt, AmMarker, PmMarker)), true) == Ok(Some(dt))
    ensures PublishDate(Some(SportsPrefix + Stamp(dt, AmMarker, PmMarker)), true) == Ok(Some(dt))
  {
    PreprocessOfKoreanStamp(dt);
    SportsPrefixDropped(dt);
    StrptimeOfStamp(dt);
  }

  /** A present timestamp that starts with neither a digit nor a marker (nor,
      on sports pages, the prefix) is a `ValueError`; in particular the
      prefix is not dropped on other pages. */
  lemma PublishDateRejects(text: string, sports: bool)
    requires text == "" || (!IsDigit(text[0]) && text[0] != '오' && (sports ==> text[0] != '기'))
    ensures PublishDate(Some(text), sports) == Err(DateValueError)
  {
    if text != "" {
      var t := if sports then ReplaceAll(text, SportsPrefix, "") else text;
      if sports {
        ReplaceAllKeepsHead(text, SportsPrefix, "");
      }
      ReplaceAllKeepsHead(t, AmMarker, "AM");
      ReplaceAllKeepsHead(ReplaceAll(t, AmMarker, "AM"), PmMarker, "PM");
    }
  }
}

=== FILE: extract.dfy ===
/** `parse_article`: turns one fetched article page into a news item. The
    crawler has three copies of it: the link-following spider (`News`), the
    date-range spider (`News_manual`) and its MongoDB twin
    (`News_manual_mongo`). They share the id, title, category and date
    logic and differ in where the body text comes from and in whether the
    publisher's link is checked. XPath is not modelled: a page is the record
    of what each lookup returned. */
module Extract {
  import opened Wrappers
  import opened Text
  import opened Whitespace
  import opened Query
  import opened CleanHtml
  import opened Dates
  import opened Copyright

  /** Which copy of the parser runs. */
  datatype Variant = AutoFollow | Manual | Mongo

  /** The three page layouts the parser tells apart. */
  datatype Kind = Sports | Entertainment | General

  /** The lookups that depend on the layout: the publish time, the
      publisher's link, the body container's markup and the text nodes of
      the body under `div/text()`, `text()` and `div/span/text()`. */
  datatype LayoutNodes = LayoutNodes(
    date: Option<string>,
    originalUrl: Option<string>,
    container: Option<string>,
    divText: seq<string>,
    text: seq<string>,
    divSpanText: seq<string>)

  /** One fetched article page: its URL, the head's meta values, the
      general layout's category box, and the nodes of each layout. */
  datatype ArticlePage = ArticlePage(
    url: string,
    feedServiceId: Option<string>,
    twitterSite: Option<string>,
    twitterCreator: Option<string>,
    ogTitle: Option<string>,
    ogAuthor: Option<string>,
    category2: Option<string>,
    guideCategory: Option<string>,
    sportsNodes: LayoutNodes,
    entertainmentNodes: LayoutNodes,
    generalNodes: LayoutNodes)

  /** `NewsItem` as the parser fills it. */
  datatype NewsItem = NewsItem(
    newsId: string,
    mediaCode: string,
    title: Option<string>,
    naverUrl: string,
    site: Option<string>,
    category: Option<string>,
    date: Option<DateTime>,
    originalUrl: Option<string>,
    content: Option<string>,
    author: string)

  /** The exceptions that escape the parser: a missing `aid` or `oid`
      (`KeyError`), a sports page without `og:article:author`
      (`AttributeError` outside any `try`) and an unreadable publish time
      (`ValueError`). */
  datatype Failure = MissingKey(key: string) | SiteMissing | DateUnreadable

  /** What one call produces: nothing for a list page, an exception, or one item. */
  datatype Extraction = Skipped | Raised(failure: Failure) | Emitted(item: NewsItem)

  const ListMarker := "list.nhn"
  const EntertainmentSite := "네이버 TV연예"
  const SportsCategory := "스포츠"
  const EntertainmentCategory := "TV연예"
  const BreakingCategory := "속보"
  const SportsSitePrefix := "네이버 스포츠 | "

  // ---------------------------------------------------------------------
  // Classification, category and publisher
  // ---------------------------------------------------------------------

  /** A `me:feed:serviceId` meta makes a sports page; otherwise the
      `twitter:site` value `네이버 TV연예` makes an entertainment page;
      everything else is a general page. */
  function Classify(page: ArticlePage): (k: Kind)
    ensures k == Sports <==> page.feedServiceId.Some?
    ensures k == Entertainment <==> page.feedServiceId.None? && page.twitterSite == Some(EntertainmentSite)
  {
    if page.feedServiceId.Some? then Sports
    else if page.twitterSite == Some(EntertainmentSite) then Entertainment
    else General
  }

  /** `news_category`: fixed for sports and entertainment; on a general page
      `me2:category2`, unless that is absent or the generic `속보`, in which
      case the category box of the article (possibly absent as well). */
  function Category(page: ArticlePage, kind: Kind): (c: Option<string>)
    ensures kind == Sports ==> c == Some(SportsCategory)
    ensures kind == Entertainment ==> c == Some(EntertainmentCategory)
    ensures kind == General && page.category2.Some? && page.category2 != Some(BreakingCategory) ==> c == page.category2
    ensures kind == General && (page.category2.None? || page.category2 == Some(BreakingCategory)) ==> c == page.guideCategory
    ensures c != Some(BreakingCategory) || page.guideCategory == Some(BreakingCategory)
  {
    match kind
    case Sports => Some(SportsCategory)
    case Entertainment => Some(EntertainmentCategory)
    case General =>
      if page.category2.None? || page.category2 == Some(BreakingCategory) then page.guideCategory
      else page.category2
  }

  /** `news_site`: `twitter:creator` on general and entertainment pages; on
      sports pages `og:article:author` with every `네이버 스포츠 | ` removed
      (an author without it is kept as written), and an exception when that
      meta is missing. */
  function Site(page: ArticlePage, kind: Kind): (r: Result<Option<string>, Failure>)
    ensures r.Err? <==> kind == Sports && page.ogAuthor.None?
    ensures r.Err? ==> r.error == SiteMissing
    ensures kind != Sports ==> r == Ok(page.twitterCreator)
    ensures kind == Sports && r.Ok? ==> r.value.Some? && |r.value.value| <= |page.ogAuthor.value|
    ensures kind == Sports && page.ogAuthor.Some? && !Contains(page.ogAuthor.value, SportsSitePrefix) ==> r == Ok(page.ogAuthor)
  {
    if kind != Sports then Ok(page.twitterCreator)
    else if page.ogAuthor.None? then Err(SiteMissing)
    else
      var author := page.ogAuthor.value;
      if !Contains(author, SportsSitePrefix) then
        ReplaceAllAbsent(author, SportsSitePrefix, "");
        Ok(Some(ReplaceAll(author, SportsSitePrefix, "")))
      else Ok(Some(ReplaceAll(author, SportsSitePrefix, "")))
  }

  /** The sports publisher as the site writes it, `네이버 스포츠 | 이름`,
      is stored as the bare name. */
  lemma SportsSiteOfPrefixed(page: ArticlePage, name: string)
    requires page.feedServiceId.Some?
    requires page.ogAuthor == Some(SportsSitePrefix + name)
    requires !Contains(name, SportsSitePrefix)
    ensures Site(page, Classify(page)) == Ok(Some(name))
  {
    ReplaceAllAtPattern(name, SportsSitePrefix, "");
    ReplaceAllAbsent(name, SportsSitePrefix, "");
    assert "" + name == name;
  }

  /** The nodes of the layout the page was classified as. */
  function NodesOf(page: ArticlePage, kind: Kind): LayoutNodes {
    match kind
    case Sports => page.sportsNodes
    case Entertainment => page.entertainmentNodes
    case General => page.generalNodes
  }

  // ---------------------------------------------------------------------
  // Publisher's link and body text
  // ---------------------------------------------------------------------

  /** The check of the MongoDB copy: the link is kept when `http://` or
      `https://` occurs anywhere in it, and is `""` otherwise, also when the
      link is absent (the `TypeError` of `in` on `None` is caught). */
  function CheckedUrl(u: Option<string>): (r: string)
    ensures r != "" ==> u == Some(r) && (Contains(r, "http://") || Contains(r, "https://"))
    ensures u.Some? && (Contains(u.value, "http://") || Contains(u.value, "https://")) ==> r == u.value
    ensures u.None? || !(Contains(u.value, "http://") || Contains(u.value, "https://")) ==> r == ""
  {
    if u.Some? && (Contains(u.value, "http://") || Contains(u.value, "https://")) then u.value else ""
  }

  /** The scheme need not come first: text in front of it is kept too. */
  lemma CheckedUrlIsSubstringTest(prefix: string, rest: string)
    ensures CheckedUrl(Some(prefix + "http://" + rest)) == prefix + "http://" + rest
  {
    var s := prefix + "http://" + rest;
    assert s[|prefix|..|prefix| + 7] == "http://";
    assert OccursAt(s, "http://", |prefix|);
  }

  /** `news_original_url`: stored as found, except in the MongoDB copy. */
  function OriginalUrl(variant: Variant, u: Option<string>): (r: Option<string>)
    ensures variant != Mongo ==> r == u
    ensures variant == Mongo ==> r == Some(CheckedUrl(u))
    ensures variant == Mongo ==> r.Some? && (r.value == "" || Contains(r.value, "http://") || Contains(r.value, "https://"))
  {
    if variant == Mongo then Some(CheckedUrl(u)) else u
  }

  /** The text-node paths tried in turn for the body. The link-following
      copy reads `text()` only; the date-range copy tries `div/text()` then
      `text()`, and on general pages `div/span/text()` last. */
  function ContentPaths(variant: Variant, kind: Kind, nodes: LayoutNodes): (paths: seq<seq<string>>)
    requires variant != Mongo
    ensures |paths| > 0
    ensures variant == AutoFollow ==> paths == [nodes.text]
    ensures variant == Manual ==> |paths| >= 2 && paths[0] == nodes.divText && paths[1] == nodes.text
    ensures variant == Manual ==> (|paths| == 3 <==> kind == General) && (kind == General ==> paths[2] == nodes.divSpanText)
  {
    if variant == AutoFollow then [nodes.text]
    else if kind == General then [nodes.divText, nodes.text, nodes.divSpanText]
    else [nodes.divText, nodes.text]
  }

  /** `news_content`: the MongoDB copy runs the container's markup through
      `clean_html` (so an absent container gives `None`); the other copies
      take the first path whose text, without copyright notices, is not
      blank. Whatever is stored is collapsed. */
  function Content(variant: Variant, lib: HtmlLib, kind: Kind, nodes: LayoutNodes): (c: Option<string>)
    ensures c.Some? ==> IsCollapsed(c.value)
    ensures variant == Mongo ==> c == Clean(lib, nodes.container)
    ensures variant == Mongo ==> (c.None? <==> nodes.container.None?)
    ensures variant != Mongo ==> c == Some(FirstNonEmpty(ContentPaths(variant, kind, nodes)))
    ensures variant != Mongo && c.value == "" ==> forall k | 0 <= k < |ContentPaths(variant, kind, nodes)| :: JoinedContent(ContentPaths(variant, kind, nodes)[k]) == ""
  {
    if variant == Mongo then Clean(lib, nodes.container)
    else Some(FirstNonEmpty(ContentPaths(variant, kind, nodes)))
  }

  /** A date-range page whose `div/text()` lines are ordinary and carry some
      text takes its body from that path alone. */
  lemma ManualContentFromDivText(lib: HtmlLib, kind: Kind, nodes: LayoutNodes)
    requires forall k | 0 <= k < |nodes.divText| :: !IsCopyrightLine(nodes.divText[k])
    requires Collapse(JoinOn(nodes.divText, ' ')) != ""
    ensures Content(Manual, lib, kind, nodes) == Some(Collapse(JoinOn(nodes.divText, ' ')))
  {
    var paths := ContentPaths(Manual, kind, nodes);
    JoinedContentWithoutNotices(nodes.divText);
    FirstNonEmptyHead(paths);
  }

  // ---------------------------------------------------------------------
  // The whole parser
  // ---------------------------------------------------------------------

  /** The parser after the ids are known: classify, read the publisher and
      the time, and fill in the item. */
  function ArticleItem(variant: Variant, lib: HtmlLib, page: ArticlePage, newsId: string, mediaCode: string): (r: Extraction)
    ensures !r.Skipped?
    ensures r.Emitted? ==> r.item.newsId == newsId && r.item.mediaCode == mediaCode
    ensures r.Emitted? ==> r.item.naverUrl == page.url && r.item.title == page.ogTitle && r.item.author == ""
    ensures r.Emitted? && r.item.content.Some? ==> IsCollapsed(r.item.content.value)
    ensures r.Emitted? && r.item.date.Some? ==> ValidDateTime(r.item.date.value)
    ensures r.Emitted? && NodesOf(page, Classify(page)).date.None? ==> r.item.date.None?
    ensures r == Raised(DateUnreadable) ==> NodesOf(page, Classify(page)).date.Some?
    ensures r == Raised(SiteMissing) <==> page.feedServiceId.Some? && page.ogAuthor.None?
    ensures r.Raised? ==> r.failure == SiteMissing || r.failure == DateUnreadable
    ensures r.Emitted? <==>
      Site(page, Classify(page)).Ok? && PublishDate(NodesOf(page, Classify(page)).date, Classify(page) == Sports).Ok?
    ensures Site(page, Classify(page)).Ok? ==>
      (r == Raised(DateUnreadable) <==> PublishDate(NodesOf(page, Classify(page)).date, Classify(page) == Sports).Err?)
    ensures r.Emitted? ==>
      (&& Site(page, Classify(page)) == Ok(r.item.site)
       && r.item.category == Category(page, Classify(page))
       && PublishDate(NodesOf(page, Classify(page)).date, Classify(page) == Sports) == Ok(r.item.date)
       && r.item.originalUrl == OriginalUrl(variant, NodesOf(page, Classify(page)).originalUrl)
       && r.item.content == Content(variant, lib, Classify(page), NodesOf(page, Classify(page))))
  {
    var kind := Classify(page);
    var nodes := NodesOf(page, kind);
    match Site(page, kind)
    case Err(e) => Raised(e)
    case Ok(site) =>
      match PublishDate(nodes.date, kind == Sports)
      case Err(_) => Raised(DateUnreadable)
      case Ok(date) =>
        Emitted(NewsItem(
          newsId, mediaCode, page.ogTitle, page.url, site,
          Category(page, kind), date,
          OriginalUrl(variant, nodes.originalUrl),
          Content(variant, lib, kind, nodes),
          ""))
  }

  /** One call of `parse_article` on a page: a list page is skipped, the
      ids are the first `aid` and `oid` of the URL's query (`aid` is looked
      up first), and the stored item keeps the page's URL and title, an
      empty author and a collapsed body. A page with both ids, a readable
      publisher and a readable (or absent) time is emitted. */
  function ExtractArticle(variant: Variant, lib: HtmlLib, page: ArticlePage): (r: Extraction)
    ensures r.Skipped? <==> Contains(page.url, ListMarker)
    ensures !Contains(page.url, ListMarker) && QueryValue(page.url, "aid").None? ==> r == Raised(MissingKey("aid"))
    ensures !Contains(page.url, ListMarker) && QueryValue(page.url, "aid").Some? && QueryValue(page.url, "oid").None? ==>
      r == Raised(MissingKey("oid"))
    ensures r.Raised? && r.failure.MissingKey? ==>
      && !Contains(page.url, ListMarker)
      && (r.failure.key == "aid" || r.failure.key == "oid")
      && QueryValue(page.url, r.failure.key).None?
    ensures (&& !Contains(page.url, ListMarker)
             && QueryValue(page.url, "aid").Some?
             && QueryValue(page.url, "oid").Some?) ==>
      r == ArticleItem(variant, lib, page, QueryValue(page.url, "aid").value, QueryValue(page.url, "oid").value)
    ensures (&& !Contains(page.url, ListMarker)
             && QueryValue(page.url, "aid").Some?
             && QueryValue(page.url, "oid").Some?
             && Site(page, Classify(page)).Ok?
             && PublishDate(NodesOf(page, Classify(page)).date, Classify(page) == Sports).Ok?) ==>
      r.Emitted?
    ensures r.Emitted? ==> QueryValue(page.url, "aid") == Some(r.item.newsId)
    ensures r.Emitted? ==> QueryValue(page.url, "oid") == Some(r.item.mediaCode)
    ensures r.Emitted? ==> r.item.naverUrl == page.url && r.item.title == page.ogTitle && r.item.author == ""
    ensures r.Emitted? && r.item.content.Some? ==> IsCollapsed(r.item.content.value)
    ensures r.Emitted? && r.item.date.Some? ==> ValidDateTime(r.item.date.value)
    ensures r.Emitted? && NodesOf(page, Classify(page)).date.None? ==> r.item.date.None?
    ensures r == Raised(DateUnreadable) ==> NodesOf(page, Classify(page)).date.Some?
    ensures r == Raised(SiteMissing) <==>
      (&& !Contains(page.url, ListMarker)
       && QueryValue(page.url, "aid").Some?
       && QueryValue(page.url, "oid").Some?
       && page.feedServiceId.Some?
       && page.ogAuthor.None?)
    ensures (&& !Contains(page.url, ListMarker)
             && QueryValue(page.url, "aid").Some?
             && QueryValue(page.url, "oid").Some?
             && Site(page, Classify(page)).Ok?) ==>
      (r == Raised(DateUnreadable) <==> PublishDate(NodesOf(page, Classify(page)).date, Classify(page) == Sports).Err?)
    ensures r.Emitted? ==>
      (&& Site(page, Classify(page)) == Ok(r.item.site)
       && r.item.category == Category(page, Classify(page))
       && PublishDate(NodesOf(page, Classify(page)).date, Classify(page) == Sports) == Ok(r.item.date)
       && r.item.originalUrl == OriginalUrl(variant, NodesOf(page, Classify(page)).originalUrl)
       && r.item.content == Content(variant, lib, Classify(page), NodesOf(page, Classify(page))))
  {
    if Contains(page.url, ListMarker) then Skipped
    else
      match QueryValue(page.url, "aid")
      case None => Raised(MissingKey("aid"))
      case Some(newsId) =>
        match QueryValue(page.url, "oid")
        case None => Raised(MissingKey("oid"))
        case Some(mediaCode) => ArticleItem(variant, lib, page, newsId, mediaCode)
  }

  /** A general page whose time is printed the site's way is emitted with
      that time, whatever the copy of the parser. */
  lemma GeneralPageDate(variant: Variant, lib: HtmlLib, page: ArticlePage, dt: DateTime)
    requires ValidDateTime(dt)
    requires !Contains(page.url, ListMarker)
    requires QueryValue(page.url, "aid").Some? && QueryValue(page.url, "oid").Some?
    requires page.feedServiceId.None? && page.twitterSite != Some(EntertainmentSite)
    requires page.generalNodes.date == Some(Stamp(dt, AmMarker, PmMarker))
    ensures ExtractArticle(variant, lib, page).Emitted?
    ensures ExtractArticle(variant, lib, page).item.date == Some(dt)
  {
    PublishDateOfStamp(dt);
  }

  /** A present publish time that cannot be read is not stored raw: the
      `ValueError` escapes and no item is produced. */
  lemma UnreadableDateRaises(variant: Variant, lib: HtmlLib, page: ArticlePage, text: string)
    requires !Contains(page.url, ListMarker)
    requires QueryValue(page.url, "aid").Some? && QueryValue(page.url, "oid").Some?
    requires page.feedServiceId.None?
    requires NodesOf(page, Classify(page)).date == Some(text)
    requires text == "" || (!IsDigit(text[0]) && text[0] != '오')
    ensures ExtractArticle(variant, lib, page) == Raised(DateUnreadable)
  {
    PublishDateRejects(text, false);
  }
}

=== FILE: query.dfy ===
/** The part of `urllib.parse` the crawler uses: `parse_qs(urlparse(url).query)`
    followed by `[key][0]`, to read the `aid`, `oid` and `date` parameters of
    a link. Percent-decoding and `+`-to-space are not modelled. */
module Query {
  import opened Wrappers
  import opened Text

  /** One decoded `name=value` pair. */
  datatype Param = Param(name: string, value: string)

  /** `urlsplit(url).query`: the text after the first `?` of the part before
      the first `#`, or `""` when there is no `?` there. */
  function UrlQuery(url: string): (q: string)
    ensures '#' !in q
    ensures '?' !in url ==> q == ""
  {
    var beforeFragment := Partition(url, '#').head;
    var cut := Partition(beforeFragment, '?');
    assert '?' in beforeFragment ==> '?' in url;
    if cut.found then cut.tail else ""
  }

  /** How `parse_qsl` (without `keep_blank_values`) reads one `&`-separated
      field: split at the first `=`; a field without `=` or with an empty
      value is skipped. */
  function FieldParam(field: string): (p: Option<Param>)
    ensures p.Some? ==> p.value.value != "" && '=' !in p.value.name
    ensures p.Some? ==> field == p.value.name + "=" + p.value.value
    ensures p.None? <==> ('=' !in field || Partition(field, '=').tail == "")
  {
    var cut := Partition(field, '=');
    if cut.found && cut.tail != "" then Some(Param(cut.head, cut.tail)) else None
  }

  /** The parameters of a list of fields, skipped fields left out: each
      pair is read from one of the fields. */
  function FieldParams(fields: seq<string>): (ps: seq<Param>)
    ensures |ps| <= |fields|
    ensures forall i | 0 <= i < |ps| :: ps[i].value != "" && '=' !in ps[i].name
    ensures forall i | 0 <= i < |ps| :: exists k | 0 <= k < |fields| :: fields[k] == ps[i].name + "=" + ps[i].value
    decreases |fields|
  {
    if |fields| == 0 then []
    else
      var rest := FieldParams(fields[1..]);
      assert forall j | 0 <= j < |rest| :: exists k | 0 <= k < |fields| :: fields[k] == rest[j].name + "=" + rest[j].value by {
        forall j | 0 <= j < |rest|
          ensures exists k | 0 <= k < |fields| :: fields[k] == rest[j].name + "=" + rest[j].value
        {
          var k :| 0 <= k < |fields[1..]| && fields[1..][k] == rest[j].name + "=" + rest[j].value;
          assert fields[k + 1] == fields[1..][k];
        }
      }
      match FieldParam(fields[0])
      case Some(p) =>
        assert fields[0] == p.name + "=" + p.value;
        [p] + rest
      case None => rest
  }

  /** `parse_qsl(query)`: the `name=value` pairs between the `&`s, blank
      values dropped; no name holds `=` and neither part holds `&`. */
  function ParseQsl(query: string): (ps: seq<Param>)
    ensures forall i | 0 <= i < |ps| :: ps[i].value != "" && '=' !in ps[i].name
    ensures forall i | 0 <= i < |ps| :: '&' !in ps[i].name && '&' !in ps[i].value
    ensures query == "" ==> ps == []
  {
    var fields := SplitOn(query, '&');
    assert query == "" ==> fields == [""];
    var ps := FieldParams(fields);
    assert forall i | 0 <= i < |ps| :: '&' !in ps[i].name + "=" + ps[i].value by {
      forall i | 0 <= i < |ps|
        ensures '&' !in ps[i].name + "=" + ps[i].value
      {
        var k :| 0 <= k < |fields| && fields[k] == ps[i].name + "=" + ps[i].value;
      }
    }
    ps
  }

  /** `parse_qs(query)[key][0]`: the value of the first pair named `key`,
      or `None` where Python raises `KeyError`. */
  function Lookup(params: seq<Param>, key: string): (r: Option<string>)
    ensures r.None? <==> forall i | 0 <= i < |params| :: params[i].name != key
    ensures r.Some? ==> exists i | 0 <= i < |params| :: params[i] == Param(key, r.value)
    decreases |params|
  {
    if |params| == 0 then None
    else if params[0].name == key then Some(params[0].value)
    else Lookup(params[1..], key)
  }

  /** The value found is the one of the first pair with that name. */
  lemma {:induction false} LookupFindsFirst(params: seq<Param>, key: string)
    requires Lookup(params, key).Some?
    ensures exists i | 0 <= i < |params| ::
      && params[i] == Param(key, Lookup(params, key).value)
      && forall j | 0 <= j < i :: params[j].name != key
    decreases |params|
  {
    var v := Lookup(params, key).value;
    if params[0].name == key {
      assert params[0] == Param(key, v);
    } else {
      LookupFindsFirst(params[1..], key);
      var i :| 0 <= i < |params[1..]| && params[1..][i] == Param(key, v)
        && forall j | 0 <= j < i :: params[1..][j].name != key;
      assert params[i + 1] == Param(key, v);
      forall j | 0 <= j < i + 1
        ensures params[j].name != key
      {
        if j > 0 {
          assert params[j] == params[1..][j - 1];
        }
      }
    }
  }

  /** `parse_qs(urlparse(url).query)[key][0]`: a non-blank value free of
      `&`, and always `KeyError` for a URL without a query. */
  function QueryValue(url: string, key: string): (r: Option<string>)
    ensures r.Some? ==> r.value != "" && '&' !in r.value
    ensures '?' !in url ==> r.None?
  {
    Lookup(ParseQsl(UrlQuery(url)), key)
  }

  // ---------------------------------------------------------------------
  // Building a query string, and reading it back
  // ---------------------------------------------------------------------

  /** A pair that survives a trip through `name=value&...`: no separator in
      it, no `=` in the name, and a non-empty value. */
  predicate Encodable(p: Param) {
    && '&' !in p.name && '=' !in p.name && '#' !in p.name
    && '&' !in p.value && '#' !in p.value
    && p.value != ""
  }

  /** The `name=value` fields of a list of pairs. */
  function Fields(params: seq<Param>): (fields: seq<string>)
    ensures |fields| == |params|
    ensures forall i | 0 <= i < |params| :: fields[i] == params[i].name + "=" + params[i].value
    decreases |params|
  {
    if |params| == 0 then []
    else [params[0].name + "=" + params[0].value] + Fields(params[1..])
  }

  /** `urlencode(params)` without percent-encoding. */
  function EncodeQuery(params: seq<Param>): string {
    JoinOn(Fields(params), '&')
  }

  /** Reading the fields of encodable pairs gives the pairs back. */
  lemma {:induction false} FieldParamsOfFields(params: seq<Param>)
    requires forall i | 0 <= i < |params| :: Encodable(params[i])
    ensures FieldParams(Fields(params)) == params
    decreases |params|
  {
    if |params| > 0 {
      var p := params[0];
      assert Encodable(p);
      PartitionAt(p.name, p.value, '=');
      assert p.name + "=" + p.value == p.name + ['='] + p.value;
      assert Fields(params)[1..] == Fields(params[1..]);
      FieldParamsOfFields(params[1..]);
      assert params == [p] + params[1..];
    }
  }

  /** `parse_qsl` inverts the encoding of encodable pairs. */
  lemma ParseOfEncode(params: seq<Param>)
    requires forall i | 0 <= i < |params| :: Encodable(params[i])
    ensures ParseQsl(EncodeQuery(params)) == params
  {
    var fields := Fields(params);
    if |params| == 0 {
      assert SplitOn("", '&') == [""];
    } else {
      forall i | 0 <= i < |fields|
        ensures '&' !in fields[i]
      {
        assert Encodable(params[i]);
      }
      SplitOfJoin(fields, '&');
      FieldParamsOfFields(params);
    }
  }

  /** The query of `base?query` (no fragment) is `query`. */
  lemma UrlQueryOf(base: string, query: string)
    requires '?' !in base && '#' !in base && '#' !in query
    ensures UrlQuery(base + "?" + query) == query
  {
    var url := base + "?" + query;
    assert '#' !in url;
    PartitionAt(base, query, '?');
    assert url == base + ['?'] + query;
  }

  /** Reading a parameter back from a link built with encodable pairs gives
      the value of the first pair with that name. */
  lemma QueryValueOfLink(base: string, params: seq<Param>, key: string)
    requires '?' !in base && '#' !in base
    requires forall i | 0 <= i < |params| :: Encodable(params[i])
    ensures QueryValue(base + "?" + EncodeQuery(params), key) == Lookup(params, key)
  {
    var fields := Fields(params);
    forall i | 0 <= i < |fields|
      ensures '#' !in fields[i]
    {
      assert Encodable(params[i]);
    }
    JoinOnAvoids(fields, '&', '#');
    UrlQueryOf(base, EncodeQuery(params));
    ParseOfEncode(params);
  }
}

=== FILE: text.dfy ===
/** The handful of Python `str` operations the crawler leans on:
    `isspace`, `in` (substring test), `replace`, `partition` and
    `split(sep)` / `sep.join(parts)` for a one-character separator. */
module Text {

  /** `c.isspace()` in Python 3: the characters `str.split()` with no
      argument and the `\s` of a `str` regular expression treat as blanks.
      U+00A0 (what `&nbsp;` decodes to) is one of them. */
  predicate IsSpace(c: char) {
    || c == ' '
    || ('\U{9}' <= c <= '\U{D}')
    || ('\U{1C}' <= c <= '\U{1F}')
    || c == '\U{85}'
    || c == '\U{A0}'
    || c == '\U{1680}'
    || ('\U{2000}' <= c <= '\U{200A}')
    || c == '\U{2028}'
    || c == '\U{2029}'
    || c == '\U{202F}'
    || c == '\U{205F}'
    || c == '\U{3000}'
  }

  /** An ASCII decimal digit. */
  predicate IsDigit(c: char) {
    '0' <= c <= '9'
  }

  /** `t` occurs in `s` starting at index `i`. */
  predicate OccursAt(s: string, t: string, i: int) {
    0 <= i && i + |t| <= |s| && s[i..i + |t|] == t
  }

  /** Python's `t in s` for two strings. */
  predicate Contains(s: string, t: string) {
    exists i | 0 <= i <= |s| - |t| :: OccursAt(s, t, i)
  }

  /** An occurrence inside a suffix is an occurrence in the whole string. */
  lemma ContainsInSuffix(s: string, k: nat, t: string)
    requires k <= |s|
    requires Contains(s[k..], t)
    ensures Contains(s, t)
  {
    var i :| 0 <= i <= |s[k..]| - |t| && OccursAt(s[k..], t, i);
    assert s[k + i..k + i + |t|] == s[k..][i..i + |t|];
    assert OccursAt(s, t, k + i);
  }

  // ---------------------------------------------------------------------
  // str.replace(pat, repl)
  // ---------------------------------------------------------------------

  /** Python's `s.replace(pat, repl)` for a non-empty `pat`: one left-to-right
      pass that replaces every non-overlapping occurrence. A replacement no
      longer than the pattern never makes the text longer, and one of the
      same length keeps its length. */
  function ReplaceAll(s: string, pat: string, repl: string): (r: string)
    requires |pat| > 0
    ensures |repl| <= |pat| ==> |r| <= |s|
    ensures |repl| == |pat| ==> |r| == |s|
    decreases |s|
  {
    if |s| < |pat| then s
    else if s[..|pat|] == pat then repl + ReplaceAll(s[|pat|..], pat, repl)
    else [s[0]] + ReplaceAll(s[1..], pat, repl)
  }

  /** A string in which `pat` does not occur is returned unchanged. */
  lemma {:induction false} ReplaceAllAbsent(s: string, pat: string, repl: string)
    requires |pat| > 0
    requires !Contains(s, pat)
    ensures ReplaceAll(s, pat, repl) == s
    decreases |s|
  {
    if |s| < |pat| {
    } else {
      assert s[0..0 + |pat|] == s[..|pat|];
      assert !OccursAt(s, pat, 0);
      if Contains(s[1..], pat) {
        ContainsInSuffix(s, 1, pat);
      }
      ReplaceAllAbsent(s[1..], pat, repl);
    }
  }

  /** A prefix that does not start an occurrence of `pat` is copied as it is. */
  lemma {:induction false} ReplaceAllSkipsPrefix(a: string, b: string, pat: string, repl: string)
    requires |pat| > 0
    requires pat[0] !in a
    ensures ReplaceAll(a + b, pat, repl) == a + ReplaceAll(b, pat, repl)
    decreases |a|
  {
    if |a| > 0 {
      var s := a + b;
      if |s| < |pat| {
        assert |b| < |pat|;
        assert ReplaceAll(b, pat, repl) == b;
      } else {
        assert s[..|pat|][0] == a[0];
        assert s[1..] == a[1..] + b;
        ReplaceAllSkipsPrefix(a[1..], b, pat, repl);
        assert a == [a[0]] + a[1..];
      }
    } else {
      assert a + b == b;
    }
  }

  /** A string whose characters cannot start an occurrence is left alone. */
  lemma ReplaceAllWithout(a: string, pat: string, repl: string)
    requires |pat| > 0
    requires pat[0] !in a
    ensures ReplaceAll(a, pat, repl) == a
  {
    ReplaceAllSkipsPrefix(a, "", pat, repl);
    assert a + "" == a;
  }

  /** An occurrence at the very start is replaced and the scan resumes after it. */
  lemma ReplaceAllAtPattern(b: string, pat: string, repl: string)
    requires |pat| > 0
    ensures ReplaceAll(pat + b, pat, repl) == repl + ReplaceAll(b, pat, repl)
  {
    var s := pat + b;
    assert s[..|pat|] == pat;
    assert s[|pat|..] == b;
  }

  /** The first character is kept whenever it cannot start an occurrence. */
  lemma ReplaceAllKeepsHead(s: string, pat: string, repl: string)
    requires |pat| > 0
    requires |s| > 0 && s[0] != pat[0]
    ensures |ReplaceAll(s, pat, repl)| > 0 && ReplaceAll(s, pat, repl)[0] == s[0]
  {
    if |s| >= |pat| {
      assert s[..|pat|][0] == s[0];
    }
  }

  /** A prefix of the output made only of characters that `repl` never
      contributes was copied verbatim from the input. */
  lemma {:induction false} ReplaceAllCopiedPrefix(s: string, pat: string, repl: string, m: nat)
    requires |pat| > 0 && |repl| > 0
    requires m <= |ReplaceAll(s, pat, repl)|
    requires forall k | 0 <= k < m :: ReplaceAll(s, pat, repl)[k] !in repl
    ensures m <= |s| && ReplaceAll(s, pat, repl)[..m] == s[..m]
    decreases |s|
  {
    var r := ReplaceAll(s, pat, repl);
    if |s| < |pat| || m == 0 {
    } else {
      assert r[0] !in repl;
      assert s[..|pat|] != pat by {
        assert repl[0] in repl;
      }
      var r' := ReplaceAll(s[1..], pat, repl);
      assert r == [s[0]] + r';
      forall k | 0 <= k < m - 1
        ensures r'[k] !in repl
      {
        assert r'[k] == r[k + 1];
      }
      ReplaceAllCopiedPrefix(s[1..], pat, repl, m - 1);
      assert r[..m] == [s[0]] + r'[..m - 1];
      assert s[..m] == [s[0]] + s[1..][..m - 1];
    }
  }

  /** When `repl` shares no character with `pat`, no occurrence of `pat`
      survives the replacement (so `"오전"` is really gone after it is
      replaced by `"AM"`). */
  lemma {:induction false} ReplaceAllRemovesPattern(s: string, pat: string, repl: string)
    requires |pat| > 0 && |repl| > 0
    requires forall c | c in repl :: c !in pat
    ensures !Contains(ReplaceAll(s, pat, repl), pat)
    decreases |s|
  {
    var r := ReplaceAll(s, pat, repl);
    if |s| < |pat| {
    } else if s[..|pat|] == pat {
      var r' := ReplaceAll(s[|pat|..], pat, repl);
      assert r == repl + r';
      ReplaceAllRemovesPattern(s[|pat|..], pat, repl);
      forall i | 0 <= i <= |r| - |pat|
        ensures !OccursAt(r, pat, i)
      {
        if i < |repl| {
          assert r[i] == repl[i] && repl[i] in repl;
          assert pat[0] in pat;
        } else {
          assert r[i..i + |pat|] == r'[i - |repl|..i - |repl| + |pat|];
          assert !OccursAt(r', pat, i - |repl|);
        }
      }
    } else {
      var r' := ReplaceAll(s[1..], pat, repl);
      assert r == [s[0]] + r';
      ReplaceAllRemovesPattern(s[1..], pat, repl);
      forall i | 0 <= i <= |r| - |pat|
        ensures !OccursAt(r, pat, i)
      {
        if i == 0 {
          if OccursAt(r, pat, 0) {
            forall k | 0 <= k < |pat|
              ensures r[k] !in repl
            {
              assert r[k] == pat[k];
              assert pat[k] in pat;
            }
            ReplaceAllCopiedPrefix(s, pat, repl, |pat|);
          }
        } else {
          assert r[i..i + |pat|] == r'[i - 1..i - 1 + |pat|];
          assert !OccursAt(r', pat, i - 1);
        }
      }
    }
  }

  /** When `repl` shares no character with `q`, the replacement creates no
      occurrence of `q` that was not already there (so turning `"오후"` into
      `"PM"` cannot bring back a `"오전"`). */
  lemma {:induction false} ReplaceAllKeepsAbsent(s: string, pat: string, repl: string, q: string)
    requires |pat| > 0 && |repl| > 0 && |q| > 0
    requires forall c | c in repl :: c !in q
    requires !Contains(s, q)
    ensures !Contains(ReplaceAll(s, pat, repl), q)
    decreases |s|
  {
    var r := ReplaceAll(s, pat, repl);
    if |s| < |pat| {
    } else if s[..|pat|] == pat {
      var r' := ReplaceAll(s[|pat|..], pat, repl);
      assert r == repl + r';
      if Contains(s[|pat|..], q) {
        ContainsInSuffix(s, |pat|, q);
      }
      ReplaceAllKeepsAbsent(s[|pat|..], pat, repl, q);
      forall i | 0 <= i <= |r| - |q|
        ensures !OccursAt(r, q, i)
      {
        if i < |repl| {
          assert r[i] == repl[i] && repl[i] in repl;
          assert q[0] in q;
        } else {
          assert r[i..i + |q|] == r'[i - |repl|..i - |repl| + |q|];
          assert !OccursAt(r', q, i - |repl|);
        }
      }
    } else {
      var r' := ReplaceAll(s[1..], pat, repl);
      assert r == [s[0]] + r';
      if Contains(s[1..], q) {
        ContainsInSuffix(s, 1, q);
      }
      ReplaceAllKeepsAbsent(s[1..], pat, repl, q);
      forall i | 0 <= i <= |r| - |q|
        ensures !OccursAt(r, q, i)
      {
        if i == 0 {
          if OccursAt(r, q, 0) {
            forall k | 0 <= k < |q|
              ensures r[k] !in repl
            {
              assert r[k] == q[k];
              assert q[k] in q;
            }
            ReplaceAllCopiedPrefix(s, pat, repl, |q|);
            assert OccursAt(s, q, 0);
          }
        } else {
          assert r[i..i + |q|] == r'[i - 1..i - 1 + |q|];
          assert !OccursAt(r', q, i - 1);
        }
      }
    }
  }

  // ---------------------------------------------------------------------
  // str.partition(c), str.split(c) and c.join(parts)
  // ---------------------------------------------------------------------

  /** The result of cutting a string at the first occurrence of a separator. */
  datatype Cut = Cut(head: string, found: bool, tail: string)

  /** Python's `s.partition(c)` (equivalently `s.split(c, 1)`): the text before
      the first `c`, whether there was one, and the text after it. */
  function Partition(s: string, c: char): (r: Cut)
    ensures r.found <==> c in s
    ensures c !in r.head
    ensures r.found ==> s == r.head + [c] + r.tail
    ensures !r.found ==> r.head == s && r.tail == ""
    decreases |s|
  {
    if |s| == 0 then Cut("", false, "")
    else if s[0] == c then Cut("", true, s[1..])
    else
      var r := Partition(s[1..], c);
      Cut([s[0]] + r.head, r.found, r.tail)
  }

  /** The cut falls exactly after a head that is free of the separator. */
  lemma {:induction false} PartitionAt(a: string, b: string, c: char)
    requires c !in a
    ensures Partition(a + [c] + b, c) == Cut(a, true, b)
    decreases |a|
  {
    var s := a + [c] + b;
    if |a| == 0 {
      assert s[1..] == b;
    } else {
      assert s[1..] == a[1..] + [c] + b;
      PartitionAt(a[1..], b, c);
      assert a == [a[0]] + a[1..];
    }
  }

  /** `c.join(parts)` for a one-character separator. */
  function JoinOn(parts: seq<string>, c: char): string
    decreases |parts|
  {
    if |parts| == 0 then ""
    else if |parts| == 1 then parts[0]
    else parts[0] + [c] + JoinOn(parts[1..], c)
  }

  /** Python's `s.split(c)`: never empty, no piece holds `c`, and joining
      the pieces back with `c` gives `s` again. */
  function SplitOn(s: string, c: char): (parts: seq<string>)
    ensures |parts| >= 1
    ensures forall i | 0 <= i < |parts| :: c !in parts[i]
    ensures JoinOn(parts, c) == s
    decreases |s|
  {
    var cut := Partition(s, c);
    if !cut.found then [s]
    else
      var rest := SplitOn(cut.tail, c);
      assert ([cut.head] + rest)[1..] == rest;
      [cut.head] + rest
  }

  /** Splitting a join gives the pieces back when none holds the separator. */
  lemma {:induction false} SplitOfJoin(parts: seq<string>, c: char)
    requires |parts| >= 1
    requires forall i | 0 <= i < |parts| :: c !in parts[i]
    ensures SplitOn(JoinOn(parts, c), c) == parts
    decreases |parts|
  {
    if |parts| == 1 {
      assert Partition(parts[0], c).found == false;
    } else {
      var rest := JoinOn(parts[1..], c);
      PartitionAt(parts[0], rest, c);
      SplitOfJoin(parts[1..], c);
      assert parts == [parts[0]] + parts[1..];
    }
  }

  /** A character that is neither the separator nor in any piece is not in
      their join. */
  lemma {:induction false} JoinOnAvoids(parts: seq<string>, c: char, x: char)
    requires x != c
    requires forall i | 0 <= i < |parts| :: x !in parts[i]
    ensures x !in JoinOn(parts, c)
    decreases |parts|
  {
    if |parts| > 1 {
      JoinOnAvoids(parts[1..], c, x);
    }
  }
}

=== FILE: walk.dfy ===
/** `parse_link` of the date-range spider: one step of the walk over a
    news outlet's list pages. A list page is identified by a task
    `(date, page, end_date)`; reading it requests every article that is
    not stored yet, the next page of the same date when the pager says so,
    and, on the first page of a date, the list of the next older date. The
    walk starts at the newest date and moves back towards `end_date`. */
module ListWalk {
  import opened Wrappers
  import opened Text
  import opened Query
  import Dates

  /** The `meta` of a list-page request. Dates are the eight-digit
      `yyyymmdd` values compared as integers. */
  datatype ListTask = ListTask(date: nat, page: nat, endDate: nat)

  /** What one list page offers: the `href`s of the headline and of the
      other article links (an `href` may be missing), the numbers shown in
      the pager, whether the pager has a "next" link, and the `href`s of
      the date shortcuts. */
  datatype ListPage = ListPage(
    headlineLinks: seq<Option<string>>,
    otherLinks: seq<Option<string>>,
    pageNumbers: seq<int>,
    hasNext: bool,
    dateLinks: seq<Option<string>>)

  /** A request the step yields: an article page or another list page. */
  datatype Request = Article(url: string) | List(task: ListTask)

  /** The exceptions that end a step early: a link whose query lacks the key
      (`KeyError`) and a shortcut date `int()` cannot read (`ValueError`). */
  datatype StepFailure = MissingKey(key: string) | BadDate

  /** The requests yielded, in order, and the exception that ended the step,
      if any; requests yielded before an exception have been handed on. */
  datatype StepOutput = StepOutput(requests: seq<Request>, failure: Option<StepFailure>)

  // ---------------------------------------------------------------------
  // Article links
  // ---------------------------------------------------------------------

  /** An article link that could be read: its `href` and its `aid`. */
  datatype ArticleLink = ArticleLink(href: string, aid: string)

  /** What `urlparse` reads from an extracted `href`: a missing one (`None`)
      parses like the empty string, whose query is empty. */
  function ParsedUrl(link: Option<string>): (u: string)
    ensures link.Some? ==> u == link.value
    ensures link.None? ==> '?' !in u
  {
    if link.Some? then link.value else ""
  }

  /** `parse_qs(urlparse(link).query)['aid'][0]` for one link, with the
      `KeyError` raised when the `aid` is missing, which is also what a
      link without `href` raises. */
  function ReadArticleLink(link: Option<string>): (r: Result<ArticleLink, StepFailure>)
    ensures r.Ok? ==> link == Some(r.value.href) && QueryValue(r.value.href, "aid") == Some(r.value.aid)
    ensures r.Err? <==> link.None? || QueryValue(link.value, "aid").None?
    ensures r.Err? ==> r.error == MissingKey("aid")
  {
    match QueryValue(ParsedUrl(link), "aid")
    case None => Err(MissingKey("aid"))
    case Some(aid) => Ok(ArticleLink(link.value, aid))
  }

  /** The reading of every link of a list, in order. */
  function ReadArticleLinks(links: seq<Option<string>>): (r: seq<Result<ArticleLink, StepFailure>>)
    ensures |r| == |links|
    ensures forall i | 0 <= i < |links| :: r[i] == ReadArticleLink(links[i])
  {
    seq(|links|, i requires 0 <= i < |links| => ReadArticleLink(links[i]))
  }

  /** The `i`-th link was read and its article is not stored yet. */
  predicate WantedAt(readings: seq<Result<ArticleLink, StepFailure>>, known: set<string>, i: int)
    requires 0 <= i < |readings|
  {
    readings[i].Ok? && readings[i].value.aid !in known
  }

  /** The loop over one list of read links: every link whose `aid` is not
      stored is requested, in document order, and the first unreadable link
      ends the step. The stored ids are not updated on the way. */
  function ArticleRequests(readings: seq<Result<ArticleLink, StepFailure>>, known: set<string>): (s: StepOutput)
    ensures |s.requests| <= |readings|
    ensures forall k | 0 <= k < |s.requests| :: s.requests[k].Article?
    decreases |readings|
  {
    if |readings| == 0 then StepOutput([], None)
    else
      match readings[0]
      case Err(e) => StepOutput([], Some(e))
      case Ok(link) =>
        var rest := ArticleRequests(readings[1..], known);
        if link.aid in known then rest
        else StepOutput([Article(link.href)] + rest.requests, rest.failure)
  }

  /** The loop finishes exactly when every link could be read, and otherwise
      stops with the exception of the first one that could not. */
  lemma {:induction false} ArticleRequestsFailure(readings: seq<Result<ArticleLink, StepFailure>>, known: set<string>)
    ensures ArticleRequests(readings, known).failure.None? <==> forall i | 0 <= i < |readings| :: readings[i].Ok?
    ensures ArticleRequests(readings, known).failure.Some? ==> exists i | 0 <= i < |readings| ::
      readings[i] == Err(ArticleRequests(readings, known).failure.value) && forall j | 0 <= j < i :: readings[j].Ok?
    decreases |readings|
  {
    if |readings| > 0 && readings[0].Ok? {
      ArticleRequestsFailure(readings[1..], known);
      assert forall i | 1 <= i < |readings| :: readings[1..][i - 1] == readings[i];
      if ArticleRequests(readings, known).failure.Some? {
        var i :| 0 <= i < |readings[1..]| && readings[1..][i] == Err(ArticleRequests(readings, known).failure.value)
          && forall j | 0 <= j < i :: readings[1..][j].Ok?;
        assert readings[i + 1] == readings[1..][i];
        assert forall j | 0 <= j < i + 1 :: readings[j].Ok? by {
          forall j | 0 <= j < i + 1
            ensures readings[j].Ok?
          {
            if j > 0 {
              assert readings[j] == readings[1..][j - 1];
            }
          }
        }
      }
    } else if |readings| > 0 {
      assert readings[0] == Err(ArticleRequests(readings, known).failure.value);
    }
  }

  /** Every request is the `href` of a wanted link. */
  lemma {:induction false} ArticleRequestsWanted(readings: seq<Result<ArticleLink, StepFailure>>, known: set<string>, k: int)
    requires 0 <= k < |ArticleRequests(readings, known).requests|
    ensures exists i | 0 <= i < |readings| :: WantedAt(readings, known, i) && ArticleRequests(readings, known).requests[k] == Article(readings[i].value.href)
    decreases |readings|
  {
    var link := readings[0].value;
    var rest := ArticleRequests(readings[1..], known);
    if link.aid !in known && k == 0 {
      assert WantedAt(readings, known, 0);
    } else {
      var k' := if link.aid in known then k else k - 1;
      ArticleRequestsWanted(readings[1..], known, k');
      var i :| 0 <= i < |readings[1..]| && WantedAt(readings[1..], known, i) && rest.requests[k'] == Article(readings[1..][i].value.href);
      assert readings[1..][i] == readings[i + 1];
      assert WantedAt(readings, known, i + 1);
    }
  }

  /** How many links, from the front, could be read. */
  function ReadablePrefix(readings: seq<Result<ArticleLink, StepFailure>>): (n: nat)
    ensures n <= |readings|
    ensures forall i | 0 <= i < n :: readings[i].Ok?
    ensures n < |readings| ==> readings[n].Err?
    decreases |readings|
  {
    if |readings| == 0 || readings[0].Err? then 0
    else
      var n := ReadablePrefix(readings[1..]);
      assert forall i | 1 <= i < n + 1 :: readings[i] == readings[1..][i - 1];
      n + 1
  }

  /** The reference loop over links that could all be read: the article of
      every link whose `aid` is not stored, in document order. */
  function WantedArticles(readings: seq<Result<ArticleLink, StepFailure>>, known: set<string>): seq<Request>
    requires forall i | 0 <= i < |readings| :: readings[i].Ok?
    decreases |readings|
  {
    if |readings| == 0 then []
    else
      (if readings[0].value.aid in known then [] else [Article(readings[0].value.href)])
      + WantedArticles(readings[1..], known)
  }

  /** The loop requests exactly the wanted links in front of the first
      unreadable one, in order, and stops with that link's exception. */
  lemma {:induction false} ArticleRequestsAreWanted(readings: seq<Result<ArticleLink, StepFailure>>, known: set<string>)
    ensures ArticleRequests(readings, known).requests == WantedArticles(readings[..ReadablePrefix(readings)], known)
    ensures ArticleRequests(readings, known).failure ==
      if ReadablePrefix(readings) < |readings| then Some(readings[ReadablePrefix(readings)].error) else None
    decreases |readings|
  {
    if |readings| > 0 && readings[0].Ok? {
      ArticleRequestsAreWanted(readings[1..], known);
      var n := ReadablePrefix(readings[1..]);
      assert readings[..n + 1][1..] == readings[1..][..n];
      assert readings[..n + 1][0] == readings[0];
    }
  }

  /** When the loop finishes, every wanted link is requested. */
  lemma {:induction false} ArticleRequestsComplete(readings: seq<Result<ArticleLink, StepFailure>>, known: set<string>, i: int)
    requires 0 <= i < |readings|
    requires ArticleRequests(readings, known).failure.None?
    requires WantedAt(readings, known, i)
    ensures Article(readings[i].value.href) in ArticleRequests(readings, known).requests
    decreases |readings|
  {
    if i > 0 {
      assert readings[0].Ok?;
      assert readings[1..][i - 1] == readings[i];
      assert WantedAt(readings[1..], known, i - 1);
      ArticleRequestsComplete(readings[1..], known, i - 1);
    }
  }

  // ---------------------------------------------------------------------
  // Paging
  // ---------------------------------------------------------------------

  /** `max(page_list)`, or 1 when the pager shows no numbers (the caught
      `ValueError` of `max` on an empty list). */
  function MaxPage(pages: seq<int>): (m: int)
    ensures |pages| == 0 ==> m == 1
    ensures |pages| > 0 ==> m in pages && forall i | 0 <= i < |pages| :: pages[i] <= m
    decreases |pages|
  {
    if |pages| == 0 then 1
    else if |pages| == 1 then pages[0]
    else
      var rest := MaxPage(pages[1..]);
      if pages[0] >= rest then pages[0] else rest
  }

  /** The same-date request for the next page, if the pager calls for one. */
  function NextPage(task: ListTask, maxPage: int, hasNext: bool): (r: Option<ListTask>)
    ensures r.Some? ==> r.value == ListTask(task.date, task.page + 1, task.endDate)
    ensures r.Some? <==> task.page < maxPage || (task.page > maxPage && hasNext)
  {
    if task.page < maxPage then Some(ListTask(task.date, task.page + 1, task.endDate))
    else if task.page > maxPage && hasNext then Some(ListTask(task.date, task.page + 1, task.endDate))
    else None
  }

  /** The paging rule spelled out: below the last numbered page the next one
      is requested; past it only while a "next" link is shown; on it never,
      even with a "next" link. */
  lemma PagingRule(task: ListTask, page: ListPage)
    ensures task.page < MaxPage(page.pageNumbers) ==> NextPage(task, MaxPage(page.pageNumbers), page.hasNext).Some?
    ensures task.page > MaxPage(page.pageNumbers) ==> (NextPage(task, MaxPage(page.pageNumbers), page.hasNext).Some? <==> page.hasNext)
    ensures task.page == MaxPage(page.pageNumbers) ==> NextPage(task, MaxPage(page.pageNumbers), page.hasNext).None?
    ensures |page.pageNumbers| == 0 && task.page == 1 ==> NextPage(task, MaxPage(page.pageNumbers), page.hasNext).None?
  {
  }

  // ---------------------------------------------------------------------
  // Date rollover
  // ---------------------------------------------------------------------

  /** Python's `int()` on the shortcut's `date` value, for an optional sign
      followed by ASCII digits. */
  function ParseInt(s: string): (r: Option<int>)
    ensures r.Some? ==> |s| > 0
    ensures r.Some? && s[0] != '-' ==> r.value >= 0
    ensures r.None? <==> !IsNumeral(s) && !(|s| > 0 && (s[0] == '+' || s[0] == '-') && IsNumeral(s[1..]))
  {
    if |s| > 0 && (s[0] == '+' || s[0] == '-') then
      (if IsNumeral(s[1..]) then Some(Signed(s[0] == '-', DecimalValue(s[1..]))) else None)
    else if IsNumeral(s) then Some(DecimalValue(s))
    else None
  }

  /** `n` with the sign the numeral was written with. */
  function Signed(negative: bool, n: nat): int {
    if negative then -(n as int) else n
  }

  /** One or more ASCII digits. */
  predicate IsNumeral(s: string) {
    |s| > 0 && forall i | 0 <= i < |s| :: IsDigit(s[i])
  }

  /** The value of a string of decimal digits. */
  function DecimalValue(s: string): (n: nat)
    requires forall i | 0 <= i < |s| :: IsDigit(s[i])
    decreases |s|
  {
    if |s| == 0 then 0
    else
      assert IsDigit(s[|s| - 1]);
      10 * DecimalValue(s[..|s| - 1]) + (s[|s| - 1] as int - '0' as int)
  }

  /** `str(n)` for a natural number: its decimal digits, most significant
      first, with no leading zero. */
  function Decimal(n: nat): (s: string)
    ensures |s| > 0 && forall i | 0 <= i < |s| :: IsDigit(s[i])
    ensures |s| > 1 ==> s[0] != '0'
    decreases n
  {
    if n < 10 then [Dates.DigitChar(n)]
    else
      var s := Decimal(n / 10) + [Dates.DigitChar(n % 10)];
      assert s[0] == Decimal(n / 10)[0];
      s
  }

  /** The digits of `str(n)` are worth `n`. */
  lemma {:induction false} DecimalValueOfDecimal(n: nat)
    ensures DecimalValue(Decimal(n)) == n
    decreases n
  {
    var s := Decimal(n);
    if n >= 10 {
      DecimalValueOfDecimal(n / 10);
      assert s[..|s| - 1] == Decimal(n / 10);
    }
  }

  /** `int()` reads back what `str()` writes, with or without a sign. */
  lemma ParseIntOfDecimal(n: nat)
    ensures ParseInt(Decimal(n)) == Some(n)
    ensures ParseInt("+" + Decimal(n)) == Some(n)
    ensures ParseInt("-" + Decimal(n)) == Some(-(n as int))
  {
    DecimalValueOfDecimal(n);
    var s := Decimal(n);
    assert ("+" + s)[1..] == s && ("-" + s)[1..] == s;
  }

  /** An illustration of `ParseIntOfDecimal` on a shortcut's eight-digit
      date: it is read as the number it spells. */
  lemma ParseIntOfShortcutDate()
    ensures ParseInt("20200301") == Some(20200301)
  {
    assert Decimal(2) == "2";
    assert Decimal(20) == "20";
    assert Decimal(202) == "202";
    assert Decimal(2020) == "2020";
    assert Decimal(20200) == "20200";
    assert Decimal(202003) == "202003";
    assert Decimal(2020030) == "2020030";
    assert Decimal(20200301) == "20200301";
    ParseIntOfDecimal(20200301);
  }

  /** The date a shortcut link points to: `int(parse_qs(query)['date'][0])`;
      a shortcut without `href` raises the `KeyError` of a missing `date`. */
  function ReadShortcutDate(link: Option<string>): (r: Result<int, StepFailure>)
    ensures r == Err(MissingKey("date")) <==> link.None? || QueryValue(link.value, "date").None?
    ensures r == Err(BadDate) <==>
      link.Some? && QueryValue(link.value, "date").Some? && ParseInt(QueryValue(link.value, "date").value).None?
    ensures r.Ok? ==> link.Some? && QueryValue(link.value, "date").Some? && ParseInt(QueryValue(link.value, "date").value) == Some(r.value)
  {
    match QueryValue(ParsedUrl(link), "date")
    case None => Err(MissingKey("date"))
    case Some(text) =>
      match ParseInt(text)
      case None => Err(BadDate)
      case Some(d) => Ok(d)
  }

  /** The reading of every shortcut, in order. */
  function ReadShortcutDates(links: seq<Option<string>>): (r: seq<Result<int, StepFailure>>)
    ensures |r| == |links|
    ensures forall i | 0 <= i < |links| :: r[i] == ReadShortcutDate(links[i])
  {
    seq(|links|, i requires 0 <= i < |links| => ReadShortcutDate(links[i]))
  }

  /** A date the walk may move to from `date`: older, but not older than
      `end_date`. */
  predicate InWindow(d: int, date: nat, endDate: nat) {
    date > d >= endDate
  }

  /** The `i`-th shortcut is readable and its date is in the window. */
  predicate RollsAt(dates: seq<Result<int, StepFailure>>, date: nat, endDate: nat, i: int)
    requires 0 <= i < |dates|
  {
    dates[i].Ok? && InWindow(dates[i].value, date, endDate)
  }

  /** The `i`-th shortcut is readable and its date is outside the window. */
  predicate PassesAt(dates: seq<Result<int, StepFailure>>, date: nat, endDate: nat, i: int)
    requires 0 <= i < |dates|
  {
    dates[i].Ok? && !InWindow(dates[i].value, date, endDate)
  }

  /** The scan of the date shortcuts: the first one, in document order,
      whose date is in the window gives a first-page task for that date and
      ends the scan (`return`); an unreadable shortcut met before it ends the
      step with an exception. */
  function FirstRollover(dates: seq<Result<int, StepFailure>>, date: nat, endDate: nat): (r: StepOutput)
    ensures |r.requests| <= 1
    ensures |r.requests| == 1 ==> r.failure.None? && r.requests[0].List?
    ensures |r.requests| == 1 ==> r.requests[0].task.page == 1 && r.requests[0].task.endDate == endDate
    ensures |r.requests| == 1 ==> InWindow(r.requests[0].task.date, date, endDate)
    decreases |dates|
  {
    if |dates| == 0 then StepOutput([], None)
    else
      match dates[0]
      case Err(e) => StepOutput([], Some(e))
      case Ok(d) =>
        if InWindow(d, date, endDate) then StepOutput([List(ListTask(d, 1, endDate))], None)
        else FirstRollover(dates[1..], date, endDate)
  }

  /** The rollover goes to the first shortcut in the window, and every
      shortcut before it was readable and outside the window. */
  lemma {:induction false} RolloverIsFirst(dates: seq<Result<int, StepFailure>>, date: nat, endDate: nat)
    requires |FirstRollover(dates, date, endDate).requests| == 1
    ensures exists i | 0 <= i < |dates| ::
      && RollsAt(dates, date, endDate, i)
      && FirstRollover(dates, date, endDate).requests[0].task.date == dates[i].value
      && forall j | 0 <= j < i :: PassesAt(dates, date, endDate, j)
    decreases |dates|
  {
    if !RollsAt(dates, date, endDate, 0) {
      RolloverIsFirst(dates[1..], date, endDate);
      var i :| 0 <= i < |dates[1..]|
        && RollsAt(dates[1..], date, endDate, i)
        && FirstRollover(dates[1..], date, endDate).requests[0].task.date == dates[1..][i].value
        && forall j | 0 <= j < i :: PassesAt(dates[1..], date, endDate, j);
      assert dates[1..][i] == dates[i + 1];
      forall j | 0 <= j < i + 1
        ensures PassesAt(dates, date, endDate, j)
      {
        if j > 0 {
          assert dates[1..][j - 1] == dates[j];
          assert PassesAt(dates[1..], date, endDate, j - 1);
        }
      }
      assert RollsAt(dates, date, endDate, i + 1);
    }
  }

  /** The scan fails with `e` exactly when the first shortcut that is not
      read and passed over is an unreadable one failing with `e`. */
  lemma {:induction false} RolloverFailure(dates: seq<Result<int, StepFailure>>, date: nat, endDate: nat, e: StepFailure)
    ensures FirstRollover(dates, date, endDate).failure == Some(e) <==>
      exists k | 0 <= k < |dates| :: dates[k] == Err(e) && forall j | 0 <= j < k :: PassesAt(dates, date, endDate, j)
    decreases |dates|
  {
    if |dates| > 0 {
      match dates[0]
      case Err(e0) =>
        if e0 != e {
          assert !PassesAt(dates, date, endDate, 0);
        }
      case Ok(d) =>
        if InWindow(d, date, endDate) {
          assert !PassesAt(dates, date, endDate, 0);
        } else {
          RolloverFailure(dates[1..], date, endDate, e);
          if FirstRollover(dates, date, endDate).failure == Some(e) {
            var k :| 0 <= k < |dates[1..]| && dates[1..][k] == Err(e) && forall j | 0 <= j < k :: PassesAt(dates[1..], date, endDate, j);
            assert dates[k + 1] == dates[1..][k];
            forall j | 0 <= j < k + 1
              ensures PassesAt(dates, date, endDate, j)
            {
              if j > 0 {
                assert dates[1..][j - 1] == dates[j];
                assert PassesAt(dates[1..], date, endDate, j - 1);
              }
            }
          }
          if exists k | 0 <= k < |dates| :: dates[k] == Err(e) && forall j | 0 <= j < k :: PassesAt(dates, date, endDate, j) {
            var k :| 0 <= k < |dates| && dates[k] == Err(e) && forall j | 0 <= j < k :: PassesAt(dates, date, endDate, j);
            assert k > 0;
            assert dates[1..][k - 1] == dates[k];
            forall j | 0 <= j < k - 1
              ensures PassesAt(dates[1..], date, endDate, j)
            {
              assert dates[1..][j] == dates[j + 1];
              assert PassesAt(dates, date, endDate, j + 1);
            }
          }
        }
    }
  }

  /** No rollover and no exception: every shortcut was read and none was in
      the window. */
  lemma {:induction false} NoRollover(dates: seq<Result<int, StepFailure>>, date: nat, endDate: nat)
    requires FirstRollover(dates, date, endDate) == StepOutput([], None)
    ensures forall i | 0 <= i < |dates| :: PassesAt(dates, date, endDate, i)
    decreases |dates|
  {
    if |dates| > 0 {
      NoRollover(dates[1..], date, endDate);
      forall i | 0 <= i < |dates|
        ensures PassesAt(dates, date, endDate, i)
      {
        if i > 0 {
          assert dates[1..][i - 1] == dates[i];
          assert PassesAt(dates[1..], date, endDate, i - 1);
        }
      }
    }
  }

  // ---------------------------------------------------------------------
  // One step
  // ---------------------------------------------------------------------

  /** A task the walk may move to from `t`: the next page of the same date,
      or the first page of an older date in the window; `end_date` is kept. */
  predicate Successor(t: ListTask, u: ListTask) {
    && u.endDate == t.endDate
    && ((u.date == t.date && u.page == t.page + 1) || (u.page == 1 && InWindow(u.date, t.date, t.endDate)))
  }

  /** The article requests of two lists of read links, the first list
      first; an exception in the first list skips the second. */
  function JoinedArticleRequests(first: seq<Result<ArticleLink, StepFailure>>, second: seq<Result<ArticleLink, StepFailure>>, known: set<string>): (s: StepOutput)
    ensures forall k | 0 <= k < |s.requests| :: s.requests[k].Article?
  {
    var heads := ArticleRequests(first, known);
    if heads.failure.Some? then heads
    else
      var others := ArticleRequests(second, known);
      StepOutput(heads.requests + others.requests, others.failure)
  }

  /** Both loops against the reference: the wanted links of the first list
      in front of its first unreadable link, then, only when every link of
      the first list was read, the wanted links of the second list in front
      of its first unreadable link; the first unreadable link of either list
      ends the step. */
  lemma JoinedArticleRequestsAreWanted(first: seq<Result<ArticleLink, StepFailure>>, second: seq<Result<ArticleLink, StepFailure>>, known: set<string>)
    ensures JoinedArticleRequests(first, second, known).requests ==
      WantedArticles(first[..ReadablePrefix(first)], known)
      + (if ReadablePrefix(first) == |first| then WantedArticles(second[..ReadablePrefix(second)], known) else [])
    ensures JoinedArticleRequests(first, second, known).failure ==
      if ReadablePrefix(first) < |first| then Some(first[ReadablePrefix(first)].error)
      else if ReadablePrefix(second) < |second| then Some(second[ReadablePrefix(second)].error)
      else None
  {
    ArticleRequestsAreWanted(first, known);
    ArticleRequestsAreWanted(second, known);
    var heads := ArticleRequests(first, known);
    if ReadablePrefix(first) < |first| {
      assert heads.requests + [] == heads.requests;
    }
  }

  /** The article requests of both link lists of a page, headline links first. */
  function AllArticleRequests(page: ListPage, known: set<string>): (s: StepOutput)
    ensures forall k | 0 <= k < |s.requests| :: s.requests[k].Article?
  {
    JoinedArticleRequests(ReadArticleLinks(page.headlineLinks), ReadArticleLinks(page.otherLinks), known)
  }

  /** The list requests of a step that got past the article links: the next
      page, if any, then on page 1 the rollover, if any. */
  function ListRequests(task: ListTask, maxPage: int, hasNext: bool, dates: seq<Result<int, StepFailure>>): (s: StepOutput)
    ensures |s.requests| <= 2
    ensures forall k | 0 <= k < |s.requests| :: s.requests[k].List? && Successor(task, s.requests[k].task)
    ensures forall k | 0 <= k < |s.requests| :: s.requests[k].task.date != task.date ==>
      task.page == 1 && k == |s.requests| - 1 && s.failure.None?
    ensures NextPage(task, maxPage, hasNext).Some? ==> |s.requests| > 0 && s.requests[0] == List(NextPage(task, maxPage, hasNext).value)
    ensures NextPage(task, maxPage, hasNext).None? ==> forall k | 0 <= k < |s.requests| :: s.requests[k].task.date != task.date
    ensures task.page != 1 ==> s.failure.None? && |s.requests| == (if NextPage(task, maxPage, hasNext).Some? then 1 else 0)
    ensures task.page == 1 ==>
      && |s.requests| == (if NextPage(task, maxPage, hasNext).Some? then 1 else 0) + |FirstRollover(dates, task.date, task.endDate).requests|
      && s.requests[|s.requests| - |FirstRollover(dates, task.date, task.endDate).requests|..] == FirstRollover(dates, task.date, task.endDate).requests
      && s.failure == FirstRollover(dates, task.date, task.endDate).failure
  {
    var next := NextPage(task, maxPage, hasNext);
    if task.page != 1 then
      if next.Some? then StepOutput([List(next.value)], None) else StepOutput([], None)
    else
      var roll := FirstRollover(dates, task.date, task.endDate);
      if next.Some? then
        var all := [List(next.value)] + roll.requests;
        assert all[1..] == roll.requests;
        StepOutput(all, roll.failure)
      else
        assert roll.requests[0..] == roll.requests;
        roll
  }

  /** On the first page of a date one step can move both ways: the next
      page of the same date comes first, the older date second. */
  lemma NextPageThenRollover(task: ListTask, maxPage: int, hasNext: bool, dates: seq<Result<int, StepFailure>>)
    requires task.page == 1 && maxPage > 1
    requires |FirstRollover(dates, task.date, task.endDate).requests| == 1
    ensures ListRequests(task, maxPage, hasNext, dates).requests
      == [List(ListTask(task.date, 2, task.endDate)), FirstRollover(dates, task.date, task.endDate).requests[0]]
    ensures ListRequests(task, maxPage, hasNext, dates).failure.None?
  {
  }

  /** `parse_link` on one list page: the article requests of the headline
      links, then of the other links, then the next-page request, then (on
      page 1 only) the rollover request. An exception ends the step where
      it occurs. */
  function Step(task: ListTask, known: set<string>, page: ListPage): (out: StepOutput)
    ensures AllArticleRequests(page, known).requests <= out.requests
    ensures AllArticleRequests(page, known).failure.Some? ==> out == AllArticleRequests(page, known)
    ensures forall k | 0 <= k < |out.requests| :: out.requests[k].Article? ==>
      k < |AllArticleRequests(page, known).requests| && out.requests[k] == AllArticleRequests(page, known).requests[k]
    ensures forall k | 0 <= k < |out.requests| :: out.requests[k].List? ==> Successor(task, out.requests[k].task)
    ensures forall k | 0 <= k < |out.requests| :: out.requests[k].List? && out.requests[k].task.date != task.date ==>
      task.page == 1 && k == |out.requests| - 1 && out.failure.None?
    ensures AllArticleRequests(page, known).failure.None? ==>
      && out.requests == AllArticleRequests(page, known).requests
                         + ListRequests(task, MaxPage(page.pageNumbers), page.hasNext, ReadShortcutDates(page.dateLinks)).requests
      && out.failure == ListRequests(task, MaxPage(page.pageNumbers), page.hasNext, ReadShortcutDates(page.dateLinks)).failure
  {
    var articles := AllArticleRequests(page, known);
    if articles.failure.Some? then articles
    else
      var lists := ListRequests(task, MaxPage(page.pageNumbers), page.hasNext, ReadShortcutDates(page.dateLinks));
      JoinRequests(task, articles.requests, lists.requests, lists.failure);
      assert articles.requests <= articles.requests + lists.requests;
      StepOutput(articles.requests + lists.requests, lists.failure)
  }

  /** Article requests followed by list requests keep the facts of each part. */
  lemma JoinRequests(task: ListTask, articles: seq<Request>, lists: seq<Request>, failure: Option<StepFailure>)
    requires forall k | 0 <= k < |articles| :: articles[k].Article?
    requires forall k | 0 <= k < |lists| :: lists[k].List? && Successor(task, lists[k].task)
    requires forall k | 0 <= k < |lists| :: lists[k].task.date != task.date ==> task.page == 1 && k == |lists| - 1 && failure.None?
    ensures forall k | 0 <= k < |articles + lists| :: (articles + lists)[k].List? ==> Successor(task, (articles + lists)[k].task)
    ensures forall k | 0 <= k < |articles + lists| :: (articles + lists)[k].List? && (articles + lists)[k].task.date != task.date ==>
      task.page == 1 && k == |articles + lists| - 1 && failure.None?
    ensures forall k | 0 <= k < |articles + lists| :: (articles + lists)[k].Article? ==> k < |articles| && (articles + lists)[k] == articles[k]
  {
    var out := articles + lists;
    forall k | 0 <= k < |out|
      ensures out[k].List? ==> Successor(task, out[k].task)
      ensures out[k].List? && out[k].task.date != task.date ==> task.page == 1 && k == |out| - 1 && failure.None?
      ensures out[k].Article? ==> k < |articles| && out[k] == articles[k]
    {
      if k >= |articles| {
        assert out[k] == lists[k - |articles|];
      }
    }
  }

  /** Every article request of a list of links has an `aid` that is not stored. */
  lemma RequestedAidIsNew(links: seq<Option<string>>, known: set<string>, k: int)
    requires 0 <= k < |ArticleRequests(ReadArticleLinks(links), known).requests|
    ensures QueryValue(ArticleRequests(ReadArticleLinks(links), known).requests[k].url, "aid").Some?
    ensures QueryValue(ArticleRequests(ReadArticleLinks(links), known).requests[k].url, "aid").value !in known
  {
    var readings := ReadArticleLinks(links);
    ArticleRequestsWanted(readings, known, k);
    var i :| 0 <= i < |readings| && WantedAt(readings, known, i)
      && ArticleRequests(readings, known).requests[k] == Article(readings[i].value.href);
    assert readings[i] == ReadArticleLink(links[i]);
  }

  /** Every article request in `rs` carries an `aid` that is not stored. */
  predicate AidsAreNew(rs: seq<Request>, known: set<string>) {
    forall k | 0 <= k < |rs| :: rs[k].Article? ==>
      QueryValue(rs[k].url, "aid").Some? && QueryValue(rs[k].url, "aid").value !in known
  }

  /** The loop over one list of links requests new articles only. */
  lemma RequestedAidsAreNew(links: seq<Option<string>>, known: set<string>)
    ensures AidsAreNew(ArticleRequests(ReadArticleLinks(links), known).requests, known)
  {
    forall k | 0 <= k < |ArticleRequests(ReadArticleLinks(links), known).requests| {
      RequestedAidIsNew(links, known, k);
    }
  }

  /** Joining two lists of new-article requests keeps them new. */
  lemma AidsAreNewJoin(a: seq<Request>, b: seq<Request>, known: set<string>)
    requires AidsAreNew(a, known) && AidsAreNew(b, known)
    ensures AidsAreNew(a + b, known)
  {
    forall k | |a| <= k < |a + b|
      ensures (a + b)[k] == b[k - |a|]
    {
    }
  }

  /** Both link loops together request new articles only. */
  lemma AllRequestedAidsAreNew(page: ListPage, known: set<string>)
    ensures AidsAreNew(AllArticleRequests(page, known).requests, known)
  {
    var h := ArticleRequests(ReadArticleLinks(page.headlineLinks), known);
    RequestedAidsAreNew(page.headlineLinks, known);
    if h.failure.None? {
      var o := ArticleRequests(ReadArticleLinks(page.otherLinks), known);
      RequestedAidsAreNew(page.otherLinks, known);
      AidsAreNewJoin(h.requests, o.requests, known);
    }
  }

  /** Every article the step requests has an `aid` that is not stored. */
  lemma StepRequestsNewArticles(task: ListTask, known: set<string>, page: ListPage, k: int)
    requires 0 <= k < |Step(task, known, page).requests|
    requires Step(task, known, page).requests[k].Article?
    ensures QueryValue(Step(task, known, page).requests[k].url, "aid").Some?
    ensures QueryValue(Step(task, known, page).requests[k].url, "aid").value !in known
  {
    AllRequestedAidsAreNew(page, known);
  }

  /** The stored ids are not updated during a step: a new article linked
      both as a headline and among the other links is requested twice. */
  lemma DuplicateLinkRequestedTwice(task: ListTask, known: set<string>, page: ListPage, href: string)
    requires page.headlineLinks == [Some(href)] && page.otherLinks == [Some(href)]
    requires QueryValue(href, "aid").Some? && QueryValue(href, "aid").value !in known
    ensures |Step(task, known, page).requests| >= 2
    ensures Step(task, known, page).requests[..2] == [Article(href), Article(href)]
  {
    DuplicateLinkArticles(known, page, href);
    var out := Step(task, known, page);
    assert AllArticleRequests(page, known).requests <= out.requests;
    assert out.requests[..2] == AllArticleRequests(page, known).requests;
  }

  /** Both link loops request the article of a new link found in both lists. */
  lemma DuplicateLinkArticles(known: set<string>, page: ListPage, href: string)
    requires page.headlineLinks == [Some(href)] && page.otherLinks == [Some(href)]
    requires QueryValue(href, "aid").Some? && QueryValue(href, "aid").value !in known
    ensures AllArticleRequests(page, known).requests == [Article(href), Article(href)]
  {
    SingleNewLink(href, known);
    JoinedRepeat(ReadArticleLinks([Some(href)]), known, Article(href));
  }

  /** A list read twice that requests one article requests it twice. */
  lemma JoinedRepeat(rs: seq<Result<ArticleLink, StepFailure>>, known: set<string>, a: Request)
    requires ArticleRequests(rs, known) == StepOutput([a], None)
    ensures JoinedArticleRequests(rs, rs, known).requests == [a, a]
  {
    assert [a] + [a] == [a, a];
  }

  /** A list holding one link to a new article requests just that link. */
  lemma SingleNewLink(href: string, known: set<string>)
    requires QueryValue(href, "aid").Some? && QueryValue(href, "aid").value !in known
    ensures ArticleRequests(ReadArticleLinks([Some(href)]), known) == StepOutput([Article(href)], None)
  {
    ReadOneLink(href);
    OneNewReading(ArticleLink(href, QueryValue(href, "aid").value), known);
  }

  /** A link with an `aid` is read as that link and that `aid`. */
  lemma ReadOneLink(href: string)
    requires QueryValue(href, "aid").Some?
    ensures ReadArticleLinks([Some(href)]) == [Ok(ArticleLink(href, QueryValue(href, "aid").value))]
  {
    var r := ReadArticleLinks([Some(href)]);
    assert r[0] == ReadArticleLink(Some(href));
    assert |r| == 1;
  }

  /** One readable link to a new article is requested, and nothing else. */
  lemma OneNewReading(link: ArticleLink, known: set<string>)
    requires link.aid !in known
    ensures ArticleRequests([Ok(link)], known) == StepOutput([Article(link.href)], None)
  {
    var rs: seq<Result<ArticleLink, StepFailure>> := [Ok(link)];
    assert rs[1..] == [];
  }

  // ---------------------------------------------------------------------
  // The walk
  // ---------------------------------------------------------------------

  /** A sequence of list tasks each of which one step may yield from the one
      before it. */
  predicate IsWalk(ts: seq<ListTask>) {
    forall i | 0 <= i < |ts| - 1 :: Successor(ts[i], ts[i + 1])
  }

  /** How often the walk moves to another date. */
  function DateChanges(ts: seq<ListTask>): nat
    decreases |ts|
  {
    if |ts| < 2 then 0
    else (if ts[1].date != ts[0].date then 1 else 0) + DateChanges(ts[1..])
  }

  /** Along a walk `end_date` never changes, dates never increase, every
      change of date moves at least one day back, and once the date has
      changed it stays at or after `end_date`. */
  lemma {:induction false} WalkBounds(ts: seq<ListTask>)
    requires |ts| > 0 && IsWalk(ts)
    ensures forall i | 0 <= i < |ts| :: ts[i].endDate == ts[0].endDate && ts[i].date <= ts[0].date
    ensures forall i | 0 <= i < |ts| :: ts[i].date == ts[0].date || ts[i].date >= ts[0].endDate
    ensures DateChanges(ts) <= ts[0].date - ts[|ts| - 1].date
    decreases |ts|
  {
    if |ts| > 1 {
      var tail := ts[1..];
      assert IsWalk(tail) by {
        forall i | 0 <= i < |tail| - 1
          ensures Successor(tail[i], tail[i + 1])
        {
          assert tail[i] == ts[i + 1] && tail[i + 1] == ts[i + 2];
        }
      }
      WalkBounds(tail);
      assert Successor(ts[0], ts[1]);
      forall i | 0 <= i < |ts|
        ensures ts[i].endDate == ts[0].endDate && ts[i].date <= ts[0].date
        ensures ts[i].date == ts[0].date || ts[i].date >= ts[0].endDate
      {
        if i > 0 {
          assert ts[i] == tail[i - 1];
        }
      }
    }
  }

  /** A walk that starts inside its window stays inside it and changes date
      at most `date - end_date` times: the number of distinct dates it
      visits is bounded, whatever the pages of each date hold. */
  lemma {:induction false} WalkVisitsFewDates(ts: seq<ListTask>)
    requires |ts| > 0 && IsWalk(ts) && ts[0].date >= ts[0].endDate
    ensures forall i | 0 <= i < |ts| :: ts[0].endDate <= ts[i].date <= ts[0].date
    ensures DateChanges(ts) <= ts[0].date - ts[0].endDate
  {
    WalkBounds(ts);
  }

  /** A successor of the last task extends a walk. */
  lemma WalkExtend(ts: seq<ListTask>, u: ListTask)
    requires |ts| > 0 && IsWalk(ts) && Successor(ts[|ts| - 1], u)
    ensures IsWalk(ts + [u])
  {
    var ts' := ts + [u];
    forall i | 0 <= i < |ts'| - 1
      ensures Successor(ts'[i], ts'[i + 1])
    {
      if i < |ts| - 1 {
        assert ts'[i] == ts[i] && ts'[i + 1] == ts[i + 1];
      }
    }
  }

  /** Every list request of a step extends the walk that reached it. */
  lemma StepExtendsWalk(ts: seq<ListTask>, known: set<string>, page: ListPage, k: int)
    requires |ts| > 0 && IsWalk(ts)
    requires 0 <= k < |Step(ts[|ts| - 1], known, page).requests|
    requires Step(ts[|ts| - 1], known, page).requests[k].List?
    ensures IsWalk(ts + [Step(ts[|ts| - 1], known, page).requests[k].task])
  {
    var out := Step(ts[|ts| - 1], known, page);
    assert Successor(ts[|ts| - 1], out.requests[k].task);
    WalkExtend(ts, out.requests[k].task);
  }
}

=== FILE: whitespace.dfy ===
/** Python's whitespace collapse `" ".join(s.split())`, used by the crawler
    on every article body: `str.split()` with no argument breaks a string
    into its maximal runs of non-blank characters, and joining them with
    one space gives a string with no leading, trailing or repeated blanks. */
module Whitespace {
  import opened Text

  /** One piece of `str.split()`: non-empty and free of blanks. */
  predicate IsWord(w: string) {
    |w| > 0 && forall i | 0 <= i < |w| :: !IsSpace(w[i])
  }

  /** Every piece of the sequence is a word. */
  predicate AllWords(ws: seq<string>) {
    forall i | 0 <= i < |ws| :: IsWord(ws[i])
  }

  /** Two blanks side by side at index `i`. */
  predicate DoubleBlankAt(s: string, i: int)
    requires 0 <= i < |s| - 1
  {
    IsSpace(s[i]) && IsSpace(s[i + 1])
  }

  /** The shape of a collapsed string: no blank at either end, every blank
      is a plain `' '`, and no two blanks are adjacent. */
  predicate IsCollapsed(s: string) {
    && (|s| > 0 ==> !IsSpace(s[0]) && !IsSpace(s[|s| - 1]))
    && (forall i | 0 <= i < |s| && IsSpace(s[i]) :: s[i] == ' ')
    && (forall i | 0 <= i < |s| - 1 :: !DoubleBlankAt(s, i))
  }

  /** Drops the leading blanks. */
  function SkipSpaces(s: string): (r: string)
    ensures |r| <= |s| && r == s[|s| - |r|..]
    ensures r == [] || !IsSpace(r[0])
    ensures forall i | 0 <= i < |s| - |r| :: IsSpace(s[i])
  {
    if |s| > 0 && IsSpace(s[0]) then SkipSpaces(s[1..]) else s
  }

  /** The longest prefix without blanks. */
  function WordPrefix(s: string): (w: string)
    ensures |w| <= |s| && w == s[..|w|]
    ensures forall i | 0 <= i < |w| :: !IsSpace(w[i])
    ensures |w| == |s| || IsSpace(s[|w|])
    ensures |s| > 0 && !IsSpace(s[0]) ==> |w| > 0
  {
    if |s| > 0 && !IsSpace(s[0]) then [s[0]] + WordPrefix(s[1..]) else ""
  }

  /** Python's `s.split()` with no argument: blanks are skipped, and each
      maximal run of non-blanks is one piece. A blank string has no pieces. */
  function Words(s: string): (ws: seq<string>)
    ensures ws == [] <==> forall i | 0 <= i < |s| :: IsSpace(s[i])
    decreases |s|
  {
    if |s| == 0 then []
    else if IsSpace(s[0]) then
      assert forall i | 1 <= i < |s| :: s[i] == s[1..][i - 1];
      Words(s[1..])
    else
      var w := WordPrefix(s);
      [w] + Words(s[|w|..])
  }

  /** Every piece of the split is non-empty and free of blanks. */
  lemma {:induction false} WordsAreWords(s: string)
    ensures AllWords(Words(s))
    decreases |s|
  {
    if |s| > 0 && IsSpace(s[0]) {
      WordsAreWords(s[1..]);
    } else if |s| > 0 {
      var w := WordPrefix(s);
      var ws := Words(s[|w|..]);
      WordsAreWords(s[|w|..]);
      assert IsWord(w);
      forall i | 0 <= i < |[w] + ws|
        ensures IsWord(([w] + ws)[i])
      {
        if i > 0 {
          assert ([w] + ws)[i] == ws[i - 1];
        }
      }
    }
  }

  /** Python's `" ".join(s.split())`: the result has the collapsed shape and
      splits into exactly the same words, in the same order, as `s`. */
  function Collapse(s: string): (r: string)
    ensures IsCollapsed(r)
    ensures Words(r) == Words(s)
  {
    WordsAreWords(s);
    JoinOfWordsIsCollapsed(Words(s));
    WordsOfJoin(Words(s));
    JoinOn(Words(s), ' ')
  }

  /** A word followed by a blank run is cut exactly at the blank. */
  lemma {:induction false} WordPrefixOfWord(w: string, t: string)
    requires forall i | 0 <= i < |w| :: !IsSpace(w[i])
    requires t == [] || IsSpace(t[0])
    ensures WordPrefix(w + t) == w
    decreases |w|
  {
    if |w| == 0 {
      assert w + t == t;
    } else {
      assert (w + t)[1..] == w[1..] + t;
      WordPrefixOfWord(w[1..], t);
      assert w == [w[0]] + w[1..];
    }
  }

  /** A string that starts with a non-blank splits into its first word and
      the split of what follows that word. */
  lemma WordsStep(s: string)
    requires |s| > 0 && !IsSpace(s[0])
    ensures Words(s) == [WordPrefix(s)] + Words(s[|WordPrefix(s)|..])
  {
    assert SkipSpaces(s) == s;
  }

  /** A leading blank does not change the split. */
  lemma WordsSkipsBlank(c: char, s: string)
    requires IsSpace(c)
    ensures Words([c] + s) == Words(s)
  {
    assert ([c] + s)[1..] == s;
  }

  /** A word, a blank and a rest split into the word and the rest's words. */
  lemma WordsOfWordThen(w: string, rest: string)
    requires IsWord(w)
    ensures Words(w + [' '] + rest) == [w] + Words(rest)
  {
    var s := w + [' '] + rest;
    assert s == w + ([' '] + rest);
    WordPrefixOfWord(w, [' '] + rest);
    WordsStep(s);
    assert s[|w|..] == [' '] + rest;
    WordsSkipsBlank(' ', rest);
  }

  /** A single word splits into itself. */
  lemma WordsOfWord(w: string)
    requires IsWord(w)
    ensures Words(w) == [w]
  {
    WordPrefixOfWord(w, "");
    assert w + "" == w;
    WordsStep(w);
    assert w[|w|..] == "";
  }

  /** The tail of a word list is a word list. */
  lemma AllWordsTail(ws: seq<string>)
    requires |ws| > 0 && AllWords(ws)
    ensures AllWords(ws[1..])
  {
    forall i | 0 <= i < |ws| - 1
      ensures IsWord(ws[1..][i])
    {
      assert ws[1..][i] == ws[i + 1];
    }
  }

  /** Splitting words joined by single spaces gives the words back. */
  lemma {:induction false} WordsOfJoin(ws: seq<string>)
    requires AllWords(ws)
    ensures Words(JoinOn(ws, ' ')) == ws
    decreases |ws|
  {
    if |ws| == 1 {
      WordsOfWord(ws[0]);
    } else if |ws| > 1 {
      assert IsWord(ws[0]);
      WordsOfWordThen(ws[0], JoinOn(ws[1..], ' '));
      AllWordsTail(ws);
      WordsOfJoin(ws[1..]);
      assert ws == [ws[0]] + ws[1..];
    }
  }

  /** A joined non-empty word list starts and ends with a non-blank. */
  lemma {:induction false} JoinEnds(ws: seq<string>)
    requires |ws| > 0 && AllWords(ws)
    ensures |JoinOn(ws, ' ')| > 0
    ensures JoinOn(ws, ' ')[0] == ws[0][0]
    ensures JoinOn(ws, ' ')[|JoinOn(ws, ' ')| - 1] == ws[|ws| - 1][|ws[|ws| - 1]| - 1]
    decreases |ws|
  {
    assert IsWord(ws[0]);
    if |ws| > 1 {
      JoinEnds(ws[1..]);
    }
  }

  /** Gluing a word, one space and a collapsed non-empty string keeps the shape. */
  lemma WordSpaceCollapsed(w: string, rest: string)
    requires IsWord(w) && IsCollapsed(rest) && |rest| > 0
    ensures IsCollapsed(w + [' '] + rest)
  {
    var s := w + [' '] + rest;
    forall i | 0 <= i < |s| && IsSpace(s[i])
      ensures s[i] == ' '
    {
      if i > |w| {
        assert s[i] == rest[i - |w| - 1];
      }
    }
    forall i | 0 <= i < |s| - 1
      ensures !DoubleBlankAt(s, i)
    {
      if i < |w| {
        assert s[i] == w[i];
      } else if i == |w| {
        assert s[i + 1] == rest[0];
      } else {
        assert s[i] == rest[i - |w| - 1] && s[i + 1] == rest[i - |w|];
        assert !DoubleBlankAt(rest, i - |w| - 1);
      }
    }
  }

  /** Words joined by single spaces have the collapsed shape. */
  lemma {:induction false} JoinOfWordsIsCollapsed(ws: seq<string>)
    requires AllWords(ws)
    ensures IsCollapsed(JoinOn(ws, ' '))
    decreases |ws|
  {
    if |ws| == 1 {
      assert IsWord(ws[0]);
    } else if |ws| > 1 {
      JoinOfWordsIsCollapsed(ws[1..]);
      JoinEnds(ws[1..]);
      WordSpaceCollapsed(ws[0], JoinOn(ws[1..], ' '));
    }
  }

  /** The part of a collapsed string after a blank is collapsed again. */
  lemma CollapsedSuffix(s: string, k: nat)
    requires IsCollapsed(s) && 0 < k < |s| && IsSpace(s[k - 1])
    ensures IsCollapsed(s[k..])
  {
    var t := s[k..];
    assert t[0] == s[k];
    assert !DoubleBlankAt(s, k - 1);
    assert t[|t| - 1] == s[|s| - 1];
    forall i | 0 <= i < |t| - 1
      ensures !DoubleBlankAt(t, i)
    {
      assert t[i] == s[k + i] && t[i + 1] == s[k + i + 1];
      assert !DoubleBlankAt(s, k + i);
    }
    forall i | 0 <= i < |t| && IsSpace(t[i])
      ensures t[i] == ' '
    {
      assert t[i] == s[k + i];
    }
  }

  /** A string is its prefix, the character at `k` and its suffix. */
  lemma SplitAround(s: string, k: nat)
    requires k < |s|
    ensures s == s[..k] + [s[k]] + s[k + 1..]
    ensures s[k..] == [s[k]] + s[k + 1..]
  {
  }

  /** Joining a word in front of a non-empty list adds one separator. */
  lemma JoinCons(w: string, ws: seq<string>, c: char)
    requires |ws| > 0
    ensures JoinOn([w] + ws, c) == w + [c] + JoinOn(ws, c)
  {
    assert ([w] + ws)[1..] == ws;
  }

  /** In a collapsed string the first word ends at a single `' '` that is
      followed by the collapsed remainder. */
  lemma CollapsedFirstWord(s: string, w: string)
    requires IsCollapsed(s) && w == WordPrefix(s) && |w| < |s|
    ensures |w| + 1 < |s|
    ensures s == w + [' '] + s[|w| + 1..]
    ensures s[|w|..] == [' '] + s[|w| + 1..]
    ensures IsCollapsed(s[|w| + 1..])
  {
    assert IsSpace(s[|w|]) && s[|w|] == ' ';
    assert |w| != |s| - 1 by {
      assert !IsSpace(s[|s| - 1]);
    }
    CollapsedSuffix(s, |w| + 1);
    SplitAround(s, |w|);
  }

  /** A string that already has the collapsed shape is left alone. */
  lemma {:induction false} CollapsedIsFixpoint(s: string)
    requires IsCollapsed(s)
    ensures JoinOn(Words(s), ' ') == s
    decreases |s|
  {
    if |s| > 0 {
      var w := WordPrefix(s);
      WordsStep(s);
      if |w| == |s| {
        assert s[|w|..] == "";
      } else {
        CollapsedFirstWord(s, w);
        var rest := s[|w| + 1..];
        WordsSkipsBlank(' ', rest);
        CollapsedIsFixpoint(rest);
        assert |Words(rest)| > 0;
        JoinCons(w, Words(rest), ' ');
      }
    }
  }

  /** The collapse changes a string exactly when the string is not already
      in collapsed shape; in particular collapsing twice is collapsing once. */
  lemma CollapseFixpointIff(s: string)
    ensures Collapse(s) == s <==> IsCollapsed(s)
    ensures Collapse(Collapse(s)) == Collapse(s)
  {
    if IsCollapsed(s) {
      CollapsedIsFixpoint(s);
    }
    CollapsedIsFixpoint(Collapse(s));
  }
}

=== FILE: wrappers.dfy ===
/** Absence and failure values shared by the whole model.
    `None` stands for Python's `None` (an XPath lookup that found nothing,
    a missing query parameter); `Result` carries either a value or the
    exception a Python call would have raised. */
module Wrappers {

  datatype Option<+T> = None | Some(value: T) {

    /** `None` stops a `:-` chain. */
    predicate IsFailure() {
      None?
    }

    /** Carries the absence on to a chain of another value type. */
    function PropagateFailure<U>(): Option<U>
      requires None?
    {
      None
    }

    /** The wrapped value of a `Some`. */
    function Extract(): T
      requires Some?
    {
      value
    }

    /** The wrapped value, or `default` when there is none. */
    function GetOr(default: T): T {
      match this
      case Some(v) => v
      case None => default
    }
  }

  datatype Result<+T, +E> = Ok(value: T) | Err(error: E)
}
